=== FILE: README.md ===
# suite-deploy core, modelled in Dafny

SuiteDeploy is an editor extension for SuiteCloud (SDF) projects. It keeps
two indexes of the project's objects:

- the **local index** (`NsiObjects`) is built by scanning the SDF project's
  `Objects` directory. Each `.xml` file there becomes a record of type,
  script id, XML source, JSON copy and a deployed flag.
- the **server index** (`NsiCliObjects`) is parsed from the `type:id` lines
  that `suitecloud object:list` prints.

Each index is shown as a two-level tree. The root level is an INDEX item
followed by one collapsed node per distinct object type, in ascending order.
A type node's children are that type's objects. A status bar shows both
counts. A `verify` command is meant to mark the first local record of each
id deployed or not, according to whether the server lists that id. As
written, it marks every one of them undeployed (see "## Findings").

This project models that core as pure functions over immutable sequences.
File contents are abstract values: the index file is the `{ objects }`
record itself, not its JSON text. What the CLI prints, the names in the
objects directory, and what the XML parser makes of a file are parameters.
JavaScript semantics are written out where they matter:

- `indexOf`/`findIndex` return -1 for "no match", and -1 is truthy while 0
  is falsy;
- `substring` clamps its arguments;
- `split` always yields at least one piece;
- `path.extname` treats a leading dot as part of the name;
- the default `sort` compares strings lexicographically.

Modules:

- `Optional`: `Option` and `Result` (`Thrown` carries the error message).
- `Seqs`: index search, split/join and filter on sequences.
- `Text`: JavaScript `substring` and decimal text.
- `Ordering`: the string order of `Array.prototype.sort`, and the
  sorted-distinct list of a set of types.
- `Paths`: `path.join`, `path.extname` and `path.parse(..).name` for entry
  names.
- `LocalObjects`: src/models/objects.ts.
- `CliObjects`: src/models/cli/object.ts.
- `TreeItems`: the root level shared by both trees.
- `ObjectTree`: src/models/object/tree.ts.
- `ObjTree`: src/models/obj/tree.ts.
- `Nsi`: src/Nsi.ts. It covers the paths, the status bar, the resets, and the
  retrieve, process and verify commands as the list transformations they
  perform.

Quirks of the code are modelled as written. Where the written behaviour is
evidently unintended, a corrected definition sits beside it (see
"## Findings").

## Model

| member | source | states |
|---|---|---|
| CliObjects.ParseLine | src/models/cli/object.ts:120-141 | A line is skipped exactly when it is empty, starts with ':', or has its first colon as its last character. A non-empty line without a colon is accepted whole as the id of an object of type "". Otherwise the type is the text before the first colon and the id is the rest, further colons included. |
| CliObjects.ParseFormatLine | src/models/cli/object.ts:123-132 | A `type:id` line with a non-empty, colon-free type and a non-empty id parses back to exactly that type and id. |
| CliObjects.AddObject | src/models/cli/object.ts:120-141 | An accepted line appends exactly its parse after the existing objects, which stay unchanged. A skipped line leaves the list as it was. |
| CliObjects.AddLinesParsed | src/models/cli/object.ts:57-65 | Feeding the lines to `addObject` one at a time, from an empty list, gives one object per accepted line, in line order, each the parse of its line. |
| CliObjects.RetrieveServerObjects | src/models/cli/object.ts:53-66 | The list is rebuilt from empty. It holds one object per accepted '\n'-separated line of the CLI output, in order, each the parse of its line. |
| CliObjects.ListingRoundTrip | src/models/cli/object.ts:57-64 | For a listing printed from well-formed objects, the accepted lines are exactly the printed ones, and each parses back to its object. |
| CliObjects.ParsedListingOfListing | src/models/cli/object.ts:53-66 | Parsing the listing of well-formed objects gives exactly those objects. |
| CliObjects.ResetObjs | src/models/cli/object.ts:49-51 | The in-memory list is emptied and the index file is kept. |
| CliObjects.GetObjects | src/models/cli/object.ts:143-165 | A non-empty in-memory list is what is returned. An empty one is answered from the file: nothing without a file, otherwise the file's parsed contents, which is the `{objects}` wrapper and never an array. |
| CliObjects.GetObjectsIntended | src/models/cli/object.ts:143-165 | The intended read never hands back the wrapper. It gives nothing exactly when the list is empty and there is no file, and otherwise the in-memory list or the list saved in the file. |
| CliObjects.GetObjectCount | src/models/cli/object.ts:178-180 | The count is 0 exactly when the list is empty. A positive count is the length of the list `getObjects` returns. |
| CliObjects.SaveIndex | src/models/cli/object.ts:207-212 | The file written holds the given list under `objects`. |
| CliObjects.Reset | src/models/cli/object.ts:198-205 | The list is emptied and the index file is removed, so `getObjects` has nothing to return. |
| CliObjects.CreateIndex | src/models/cli/object.ts:182-189 | The in-memory list becomes exactly the given list and the count equals its length. A non-empty list is what `getObjects` returns. |
| CliObjects.SavedServerIndexReadsBackWrapped | src/models/cli/object.ts:143-165 | Once the list is emptied, `getObjects` returns the saved `{objects}` wrapper rather than the saved list. |
| CliObjects.SavedServerIndexIntendedRoundTrip | src/models/cli/object.ts:207-212 | With the intended read, the saved index reads back as the saved list, both before and after the in-memory list is emptied. |
| CliObjects.GetObjectRecord | src/models/cli/object.ts:167-176 | A record is returned exactly when the id is listed and the head of the listing has another id. The record returned is the first one with that id, at a position > 0. |
| CliObjects.FindObjectRecord | src/models/cli/object.ts:167-176 | The intended lookup returns a record exactly when the id is listed, and that record is the first one with the id. |
| CliObjects.GetObjectRecordMissesHead | src/models/cli/object.ts:170-173 | The written lookup agrees with the intended one except when the id's first record heads the listing, where it returns nothing. |
| CliObjects.GetObjectRecordHeadCounterexample | src/models/cli/object.ts:171 | In a one-object listing, the written lookup does not find the only object, while the intended lookup does. |
| CliObjects.DeployedIdsAreFound | src/models/cli/object.ts:93-103 | The ids collected for the import are exactly the ids of the `{id, value}` entries whose value is true, in local order. |
| CliObjects.DeployedIdsOfEmptyServer | src/models/cli/object.ts:93-103 | Against an empty server list, no local id is found. |
| CliObjects.PlanVerify | src/models/cli/object.ts:90-103 | There is one `{id, value}` entry per local object, in order, and `value` holds exactly when `getObjectRecord` finds the id. The found ids are collected in local order and are the ids of the entries marked true. An undefined local list gives no entries. |
| CliObjects.ImportArgumentRecoversIds | src/models/cli/object.ts:108 | Splitting the space-joined import argument at spaces gives back the found ids, provided there is at least one and none contains a space. |
| CliObjects.DeployFilePath | src/models/cli/object.ts:36-38 | The manifest path is defined exactly when the SDF project path is defined and non-empty. It is `deploy.xml` inside that directory. |
| CliObjects.SaveDeployFile | src/models/cli/object.ts:217-227 | It returns true exactly when the deploy path is defined, and then writes there a manifest whose object path names exactly the given id. Otherwise it writes nothing and returns false. |
| LocalObjects.GetObjectRecord | src/models/objects.ts:84-93 | Same quirk as the server lookup: a record is returned exactly when the id is present and the head record has another id. |
| LocalObjects.FindObjectRecord | src/models/objects.ts:84-93 | The intended lookup returns the first record with the id exactly when the id is present. |
| LocalObjects.GetObjectRecordMissesHead | src/models/objects.ts:87-90 | The written lookup and the intended one differ only when the id's first record heads the list. |
| LocalObjects.GetObjectRecordHeadCounterexample | src/models/objects.ts:88 | In a one-record index, the written lookup does not find the only record, while the intended lookup does. |
| LocalObjects.ResetObjects | src/models/objects.ts:99-101 | The list is emptied and the index file is kept. |
| LocalObjects.GetObjects | src/models/objects.ts:70-82 | A non-empty in-memory list is what is returned. An empty one is answered from the file's `objects`. The result is undefined exactly when the list is empty and there is no file or its `objects` is undefined. |
| LocalObjects.GetObjectCount | src/models/objects.ts:95-97 | The count is 0 exactly when the list is empty. A positive count is the length of the list `getObjects` returns. |
| LocalObjects.SaveIndex | src/models/objects.ts:222-227 | The file written holds the given list, or undefined, under `objects`. |
| LocalObjects.Reset | src/models/objects.ts:199-206 | The list is emptied and the index file is removed, so `getObjects` returns undefined. |
| LocalObjects.AddObject | src/models/objects.ts:103-106 | The count grows by one, earlier records are unchanged, the new record is last, and the file is untouched. |
| LocalObjects.CreateIndex | src/models/objects.ts:179-190 | The list becomes exactly the given list, or empty when the list is undefined. The count follows. |
| LocalObjects.SavedIndexReadsBack | src/models/objects.ts:208-227 | After the list is emptied, `getObjects` reads back exactly what `saveIndex` wrote, a list or undefined. A non-empty in-memory list is returned as is. |
| LocalObjects.ApplyDeployed | src/models/objects.ts:111-121 | Only `deployed` fields change and ids stay in place. The pass completes exactly when every value's id is present. |
| LocalObjects.LastValueOfAppend | src/models/objects.ts:111-116 | A later value for an id overrides an earlier one. |
| LocalObjects.ApplyDeployedSpec | src/models/objects.ts:111-116 | With every id present, the pass completes. The first record of each id carries the last value given for it, and every other record is unchanged. |
| LocalObjects.UpdateObjectFields | src/models/objects.ts:108-124 | A `'deployed'` update throws exactly when some id is missing; then the index is not saved. Otherwise the index is saved with the resulting list. Another field changes no record. Only `deployed` fields ever change. |
| LocalObjects.UpdateDeployedSpec | src/models/objects.ts:108-124 | With every id present, nothing throws. Each id's first record ends with the last value given for it, and the rest are unchanged. |
| LocalObjects.UpdateDeployedPerRecord | src/models/objects.ts:111-116 | With one value per record, aligned with the records and agreeing for equal ids, each id's first record gets the value at its own position. |
| LocalObjects.ObjectFileRecord | src/models/objects.ts:160-167 | The record built from a parsed root has the root's type and script id, the given XML and JSON files, and no deployed state. |
| LocalObjects.CreateObjectFile | src/models/objects.ts:149-177 | When the XML parses, exactly one record is appended: type and id from the parsed root, the given source and destination, `deployed` unset. When it does not parse, nothing changes. The index file is untouched either way. |
| LocalObjects.ScanStepAppends | src/models/objects.ts:137-145 | One turn of the scan keeps the file and the existing records. It appends a record converted from the entry exactly when the entry is an ".xml" file that parses, and otherwise changes nothing. |
| LocalObjects.ScanRecords | src/models/objects.ts:134-147 | Scanning the directory listing keeps the file and the existing records, then appends one record per entry whose extension is ".xml" and whose XML parses, in listing order. Each record takes its XML file from the objects directory, its JSON file (stem + ".json") from the index root, and its type and id from the parsed XML. |
| LocalObjects.CreateObjectFiles | src/models/objects.ts:134-147 | The existing records stay first. They are followed by one record per entry whose extension is exactly ".xml" and whose XML parses, in order, each converted from its entry. |
| LocalObjects.CreateObjects | src/models/objects.ts:126-132 | The list is rebuilt from empty. It holds exactly one converted record per ".xml" entry whose XML parses, in listing order. |
| Paths.JoinPathSplits | src/models/objects.ts:138 | A directory joined with an entry name splits back into that directory and that name. |
| Paths.ExtName | src/models/objects.ts:139 | The extension is empty or a final '.'-started suffix without further dots, and it is shorter than the name. It is empty only for "", "..", or a name with no '.' after its first character. |
| Paths.IsXmlNameIff | src/models/objects.ts:139 | An entry is converted exactly when it ends in ".xml" and has at least one character before that. |
| Paths.Stem | src/models/objects.ts:140 | The stem followed by the extension is the whole name. |
| Paths.JsonFileNameMapsStem | src/models/objects.ts:140 | For an XML entry, the JSON name has extension ".json" and the same non-empty stem. The stem plus ".xml" gives the entry back. |
| Text.Substring | src/models/cli/object.ts:128 | For in-range bounds it is the slice. A negative end clamps to 0, so `substring(0, -1)` is "". |
| Text.SubstringFrom | src/models/cli/object.ts:129 | For an in-range start it is the suffix from there. A negative start gives the whole string. |
| Text.ParseNatToString | src/Nsi.ts:164-166 | The decimal text of a count reads back as that count. |
| Seqs.SplitOfJoin | src/models/cli/object.ts:57 | Splitting a join of separator-free pieces gives the pieces back. |
| Ordering.SortedDistinct | src/models/object/tree.ts:92-95 | The result is strictly ascending and has exactly the members of the input. |
| Ordering.StrictlySortedUnique | src/models/object/tree.ts:92-95 | Two strictly ascending lists with the same members are equal, so the sorted set of types is determined. |
| TreeItems.NodesTypedAndSorted | src/models/object/tree.ts:96-122 | After the index item, the nodes are type nodes of the sorted types, strictly ascending by id. |
| TreeItems.NodesCover | src/models/object/tree.ts:92-122 | Every type has its node after the index item. |
| TreeItems.RootItems | src/models/object/tree.ts:72-123 | The first item is the INDEX item. Then come collapsed type nodes, one for each type and no other, strictly ascending (hence distinct). |
| TreeItems.RootItemsBySet | src/models/object/tree.ts:92-95 | The root level depends only on the set of types. Its size is 1 plus the number of distinct types. |
| ObjectTree.Label | src/models/object/tree.ts:42-51 | A child's label ends with the object id. It is the bare id when the state is unknown. A known state ("(D) " or "(Undeployed) ") can be read back from the label and the id. |
| ObjectTree.Tooltip | src/models/object/tree.ts:40-51 | A child's tooltip is "(DEPLOYED) id" or "(Undeployed) id" for a known state, which reads back from it, and "type  (id: id)" when the state is unknown. |
| ObjectTree.ChildItem | src/models/object/tree.ts:33-69 | A child's id is the object id, it is a leaf with context 'object', its click opens the XML file, and it carries both file names. Its label shows the deployed state. |
| ObjectTree.RootLevel | src/models/object/tree.ts:72-123 | The root starts with the INDEX item opening the local index path. Then come strictly ascending collapsed nodes, one per type that some object has, and no other. |
| ObjectTree.TypeChildren | src/models/object/tree.ts:32-70 | A type node's children are the items of exactly the objects of that type, in index order. |
| ObjectTree.GetObjects | src/models/object/tree.ts:26-127 | With no index there are no items. Otherwise the result is the root level for no element and the children of the element's type for an element. |
| ObjectTree.EveryObjectUnderItsType | src/models/object/tree.ts:26-127 | Every indexed object is among the children of the root node whose id is its type. |
| ObjTree.ChildItem | src/models/obj/tree.ts:36-62 | A server child's label and id are the object id, its tooltip is "type  (id: id)", its context is 'obj', and its command is `nsi.jsonFile` with argument 'TBD'. |
| ObjTree.RootLevel | src/models/obj/tree.ts:63-111 | The root starts with the INDEX item. Then come strictly ascending collapsed nodes, one per listed type and no other. |
| ObjTree.TypeChildren | src/models/obj/tree.ts:34-62 | A type node's children are the items of exactly the listed objects of that type, in listing order. |
| ObjTree.GetObjs | src/models/obj/tree.ts:30-115 | With no listing there are no items. With an array, the result is the root level or a type's children. It throws exactly when `getObjects` handed back the index file's wrapper. |
| ObjTree.EveryObjUnderItsType | src/models/obj/tree.ts:30-115 | Every listed object is among the children of the root node whose id is its type. |
| ObjTree.ServerTreeAfterReload | src/models/obj/tree.ts:82 | Once the list is emptied while its index file exists, drawing the tree throws. With the intended read, it draws the saved listing with 1 + (distinct types) root items. |
| Nsi.DerivePaths | src/Nsi.ts:26-31 | Paths are derived exactly when the workspace path is defined and non-empty. They are `src` in the workspace, and `Objects` and `SuiteDeploy` in `src`. |
| Nsi.Child | src/Nsi.ts:28-30 | A joined path splits back into its directory and entry. |
| Nsi.IndexFilesIn | src/models/cli/object.ts:32-33 | The server index is `SDF_CLI/index.json` and the local one (src/models/objects.ts:61-62) is `Objects/index.json`, both in the SuiteDeploy directory. |
| Nsi.IndexPathsOf | src/Nsi.ts:26-33 | The two index classes get their paths exactly when the project paths are derived, with `deploy.xml` in `src` as the manifest. Otherwise `path.join(undefined)` throws a TypeError. |
| Nsi.IndexFilesDistinct | src/Nsi.ts:26-33 | For a defined, non-empty workspace path, the paths are derived and the two indexes live in different files. |
| Nsi.StatusText | src/Nsi.ts:159-169 | The text is "SuiteDeploy " followed by the counts' words joined with spaces: "L / S", or just "L" when S is 0. A '/' appears exactly when the server count is not 0, and both counts can be read back from the text. |
| Nsi.Reset | src/Nsi.ts:171-186 | Both lists are emptied and both index files removed, and the bar reads "SuiteDeploy 0". |
| Nsi.ResetNsiObjects | src/Nsi.ts:188-199 | Only the local index is reset. The server store is unchanged, and the bar shows 0 local objects and the unchanged server count. |
| Nsi.ResetNsiObjs | src/Nsi.ts:201-212 | Only the server index is reset. The local store is unchanged, and the bar shows only the local count. |
| Nsi.ResetEmptiesViews | src/Nsi.ts:171-186 | After a reset, both trees are empty at every level. |
| Nsi.RetrieveServerObjects | src/Nsi.ts:92-111 | The local store is untouched. When the CLI answers, the server list, in memory and in the index file, is the parse of its output. When the call fails, the server store stays as `reset()` left it. |
| Nsi.RetrieveFailureEmptiesServerView | src/Nsi.ts:96-111 | After a failed CLI call, the server tree is empty at every level, and the text the next `updateStatusBar` would set holds only the local count. |
| Nsi.RetrieveNothingBreaksServerTree | src/Nsi.ts:100-103 | A CLI answer with no accepted line leaves the list empty and saves `{objects: []}`, so drawing the server tree throws. With the intended read, it shows the INDEX item alone. |
| Nsi.RetrieveListingRoundTrip | src/Nsi.ts:92-111 | Retrieving a listing of well-formed objects leaves exactly those objects, and the bar counts them. |
| Nsi.ProcessLocalObjects | src/Nsi.ts:72-90 | Afterwards the local list holds one converted record per ".xml" entry whose XML parses, in order, and is saved. The server index file is wiped while the server list stays. The bar shows the new local count. |
| Nsi.VerifyAgainst | src/models/cli/object.ts:84-118 | The server store is the one given. It throws exactly when it starts no import. Records keep their places and change only in `deployed`. Without a throw the index is saved; with one the file is kept. |
| Nsi.VerifyFromMemory | src/models/cli/object.ts:84-118 | From a non-empty local list, nothing throws and the index is saved. Each id's first record is marked with whether the lookup finds it, and the import names the found ids in local order. |
| Nsi.VerifyAgainstSpec | src/models/cli/object.ts:84-118 | It throws exactly when the in-memory list is empty but the index file lists objects. From an empty list and no listed objects, it saves an empty index and imports "". |
| Nsi.VerifyAsScheduled | src/models/cli/object.ts:84-118 | As the code schedules it, the server store ends as the refresh leaves it, and a run that does not throw imports nothing (""). |
| Nsi.VerifyAsScheduledMarksNothing | src/models/cli/object.ts:88 | As the code schedules it, every local object is marked undeployed and the import argument is "", whatever the server lists. |
| Nsi.VerifyAwaited | src/models/cli/object.ts:84-118 | If the listing were awaited, the server store would end as the refresh leaves it. The import would name the local ids found in the parsed listing, or nothing when the CLI call failed. |
| Nsi.VerifyAwaitedMarksListed | src/models/cli/object.ts:84-118 | If the listing were awaited, each local object would be marked deployed exactly when the lookup finds it in the new listing. |
| Nsi.VerifyScheduleCounterexample | src/models/cli/object.ts:88 | For an object listed second by the server, verify as scheduled marks it undeployed, but awaiting the listing would mark it deployed. |

## Left out

- File-system effects (`readFileSync`, `writeFileSync`, `rmSync`, `mkdirSync`, `existsSync`, `readdirSync`): an index file is a stored value or absent, and a directory listing is a parameter.
- JSON text: `JSON.stringify`/`JSON.parse` are not modelled. The one effect they have here, dropping an undefined `objects` field, is part of `LocalObjects.IndexFile`.
- XML parsing with xml2js and `plainToInstance`: these are foreign libraries. What the parser makes of a file is a function parameter giving the root element name and `scriptid`, or nothing. Nothing stands for a file xml2js yields no document for (empty or malformed): `Object.keys` then throws inside the unawaited `createObjectFile`, and the entry is skipped. A root without `scriptid` (an undefined id) is outside the model. The objects.ts `createObjectFile` branch for a missing source file (only logs and shows an error) is left out, since entries come from the directory listing itself.
- `NsiShellCommand` and the child processes it starts: the output of `suitecloud object:list` is a parameter. The `importObject` and `deployObject` commands, and the import `verify` starts, are modelled only through the argument string they build (`CliObjects.ImportArgument`, `CliObjects.SaveDeployFile`).
- Promise scheduling in general. Each command is modelled as the list transformation it performs once settled. The one ordering that changes the outcome, `verify` awaiting a method that returns `void`, is modelled explicitly (`Nsi.VerifyAsScheduled`).
- The editor host API: command registration, tree refresh events, the status bar item, messages, the output channel and its timestamps.
- The constructors' initial `getObjects() || []` load from file. The server one could leave the wrapper record in memory. Stores start from an explicit value.
- Nsi.WorkspacePath: the first workspace folder is modelled as a plain selection, with no contract of its own.
- Path normalisation: `path.join` is modelled as `dir + "/" + name` for single entry names. `..` segments and duplicate separators in the workspace path are not resolved.
- Path separators: the model assumes POSIX '/' separators. Windows `\` separators are not modelled.
- Text is a sequence of Unicode scalar values, not UTF-16 code units, so the type sort differs from JavaScript's for characters outside the Basic Multilingual Plane.
- Logging, `initializeStatusBar` and `isDirectory`'s messages.
- Nsi.RetrieveFailureEmptiesServerView: the failure path does not refresh the bar, because `.catch` only logs (src/Nsi.ts:110). The displayed text stays what it was, and the lemma's bar clause states only the text the next `updateStatusBar` would set. The displayed text is not part of the state.

## Findings

| source | as written | input that shows it | evidently intended | confidence | as-written member | corrected member |
|---|---|---|---|---|---|---|
| src/models/cli/object.ts:171 | `index && index > 0` keeps only matches at a position > 0, because position 0 is falsy | a listing whose only line is `savedsearch:customsearch_a`, looked up by `customsearch_a` | the first match at any position (`index >= 0`) | high; not executed | CliObjects.GetObjectRecordHeadCounterexample | CliObjects.FindObjectRecord |
| src/models/objects.ts:88 | the same `index && index > 0` guard in the local lookup | a one-record local index, looked up by its own id | the first match at any position | high; not executed | LocalObjects.GetObjectRecordHeadCounterexample | LocalObjects.FindObjectRecord |
| src/models/cli/object.ts:160 | `saveIndex` writes `{objects: list}` (line 209), but `getIndexFromFile` returns the parsed value as if it were the bare list | a retrieve whose CLI output has no accepted line (an empty listing): the list stays `[]`, the file holds `{objects: []}`, and drawing the server tree throws `index.map is not a function`. An extension restart with an index file present does the same. The SuiteDeploy directory must exist, e.g. after processing local objects: after a full reset the non-recursive `mkdirSync` of `SDF_CLI` fails and `saveIndex` writes nothing | read back `parsed.objects` | high; not executed | Nsi.RetrieveNothingBreaksServerTree | CliObjects.SavedServerIndexIntendedRoundTrip |
| src/models/cli/object.ts:88 | `await this.nsi.retrieveServerObjects()` awaits a method that returns `void`, so the lookups run in the list its `reset()` has just emptied | one local object whose id the server lists second: it is marked undeployed | await the refreshed listing before looking ids up | high; not executed | Nsi.VerifyScheduleCounterexample | Nsi.VerifyAwaitedMarksListed |

=== FILE: cli_objects.dfy ===
/** The server object index (`NsiCliObjects`, src/models/cli/object.ts): the
    objects the SuiteCloud CLI lists for the account, parsed from the text of
    `suitecloud object:list`, kept in memory and in an index file; plus the
    deploy manifest and the lookups verification uses. File contents are
    abstract values, and the CLI's output is a parameter. */
module CliObjects {
  import opened Optional
  import Seqs
  import Text
  import Paths
  import LocalObjects

  /** One listed server object (`NsiCliObject`). */
  datatype CliObject = CliObject(objectType: string, id: string)

  /** What `addObject` makes of one line of the listing, or None when it
      skips the line. Its guards are JavaScript truthiness tests: the empty
      line is falsy, and so is a first colon at position 0, but the "no
      colon" position -1 is truthy, so a line without a colon is taken whole
      as the id of an object of type "" (`substring(0, -1)` clamps to ""). */
  function ParseLine(line: string): (r: Option<CliObject>)
    ensures r.None? <==>
      line == "" || line[0] == ':' || (line[|line| - 1] == ':' && ':' !in line[..|line| - 1])
    ensures ':' !in line && line != "" ==> r == Some(CliObject("", line))
    ensures r.Some? && ':' in line ==>
      && r.value.objectType != "" && ':' !in r.value.objectType && r.value.id != ""
      && line == r.value.objectType + ":" + r.value.id
  {
    if line != "" then
      var colon := Seqs.IndexOf(line, ':');
      if colon != 0 && |line| > colon + 1 then
        assert colon > 0 ==> line == line[..colon] + ":" + line[colon + 1..];
        assert colon > 0 ==> line[..|line| - 1][colon] == ':';
        Some(CliObject(Text.Substring(line, 0, colon), Text.SubstringFrom(line, colon + 1)))
      else
        assert colon > 0 ==> line[..|line| - 1] == line[..colon];
        None
    else None
  }

  /** Whether `addObject` keeps a line. */
  predicate IsAccepted(line: string) {
    ParseLine(line).Some?
  }

  /** `addObject(line)`: the object parsed from an accepted line is pushed
      at the end of the list; a skipped line leaves the list as it was. */
  function AddObject(objects: seq<CliObject>, line: string): (r: seq<CliObject>)
    ensures |r| == |objects| + (if IsAccepted(line) then 1 else 0)
    ensures r[..|objects|] == objects
    ensures IsAccepted(line) ==> ParseLine(line) == Some(r[|objects|])
  {
    match ParseLine(line)
    case Some(o) => objects + [o]
    case None => objects
  }

  /** The list `addObject` leaves after each of `lines` in turn. */
  function AddLines(objects: seq<CliObject>, lines: seq<string>): seq<CliObject>
  {
    Seqs.FoldLeft(AddObject, objects, lines)
  }

  /** The listing line the CLI prints for an object: `type:id`. */
  function FormatLine(o: CliObject): string {
    o.objectType + ":" + o.id
  }

  /** A type and id that a listing line can carry and give back intact. */
  ghost predicate Listable(o: CliObject) {
    && o.objectType != "" && ':' !in o.objectType && '\n' !in o.objectType
    && o.id != "" && '\n' !in o.id
  }

  /** A string with its first colon is split in only one way. */
  lemma ColonSplitUnique(t1: string, i1: string, t2: string, i2: string)
    requires ':' !in t1 && ':' !in t2
    requires t1 + ":" + i1 == t2 + ":" + i2
    ensures t1 == t2 && i1 == i2
  {
    var s := t1 + ":" + i1;
    assert s[..|t1|] == t1 && s[|t1| + 1..] == i1;
    Seqs.IndexOfUnique(s, ':', |t1|);
    var s2 := t2 + ":" + i2;
    assert s2[..|t2|] == t2 && s2[|t2| + 1..] == i2;
    Seqs.IndexOfUnique(s2, ':', |t2|);
  }

  /** The formatted line of an object with a non-empty, colon-free type and
      a non-empty id parses back to that object. */
  lemma ParseFormatLine(o: CliObject)
    requires o.objectType != "" && ':' !in o.objectType && o.id != ""
    ensures ParseLine(FormatLine(o)) == Some(o)
  {
    var line := FormatLine(o);
    assert line[|o.objectType|] == ':';
    assert line[0] == o.objectType[0];
    assert line[..|line| - 1][|o.objectType|] == ':';
    var r := ParseLine(line).value;
    ColonSplitUnique(r.objectType, r.id, o.objectType, o.id);
  }

  /** The objects a listing describes: the parse of each accepted line,
      in line order. */
  function ParsedListing(output: string): (objects: seq<CliObject>)
    ensures var accepted := Seqs.Filter(Seqs.Split(output, '\n'), IsAccepted);
      |objects| == |accepted|
  {
    var accepted := Seqs.Filter(Seqs.Split(output, '\n'), IsAccepted);
    seq(|accepted|, k requires 0 <= k < |accepted| => ParseLine(accepted[k]).value)
  }

  /** Feeding lines to `addObject` from an empty list collects the parse of
      each accepted line, in line order: the objects a listing describes. */
  lemma {:induction false} AddLinesParsed(lines: seq<string>)
    ensures var accepted := Seqs.Filter(lines, IsAccepted);
      && |AddLines([], lines)| == |accepted|
      && forall k :: 0 <= k < |accepted| ==> ParseLine(accepted[k]) == Some(AddLines([], lines)[k])
  {
    if |lines| > 0 {
      var n := |lines| - 1;
      AddLinesParsed(lines[..n]);
      Seqs.FilterPrefixStep(lines, n, IsAccepted);
      assert lines[..n + 1] == lines;
    }
  }

  /** `retrieveServerObjects()` after the CLI has answered with `output`:
      the list is rebuilt from empty by `addObject` on every line of the
      output split at '\n', so it holds one object per accepted line, in line
      order. */
  method RetrieveServerObjects(output: string) returns (objects: seq<CliObject>)
    ensures var accepted := Seqs.Filter(Seqs.Split(output, '\n'), IsAccepted);
      && |objects| == |accepted|
      && forall k :: 0 <= k < |objects| ==> ParseLine(accepted[k]) == Some(objects[k])
    ensures objects == ParsedListing(output)
  {
    var lines := Seqs.Split(output, '\n');
    objects := Seqs.ForEach(AddObject, [], lines);
    AddLinesParsed(lines);
  }

  /** The text of a listing that prints one `type:id` line per object. */
  function Listing(objects: seq<CliObject>): string {
    Seqs.Join(seq(|objects|, k requires 0 <= k < |objects| => FormatLine(objects[k])), '\n')
  }

  /** Parsing a listing of well-formed objects gives the objects back: the
      accepted lines are exactly the printed ones, and each parses to its
      object. */
  lemma {:induction false} ListingRoundTrip(objects: seq<CliObject>)
    requires forall k :: 0 <= k < |objects| ==> Listable(objects[k])
    ensures var accepted := Seqs.Filter(Seqs.Split(Listing(objects), '\n'), IsAccepted);
      && |accepted| == |objects|
      && forall k :: 0 <= k < |objects| ==> ParseLine(accepted[k]) == Some(objects[k])
  {
    var lines := seq(|objects|, k requires 0 <= k < |objects| => FormatLine(objects[k]));
    if |objects| == 0 {
      assert Seqs.Split("", '\n') == [""];
      assert !IsAccepted("");
      assert Seqs.Filter([""], IsAccepted) == [];
    } else {
      forall k | 0 <= k < |lines|
        ensures '\n' !in lines[k] && IsAccepted(lines[k]) && ParseLine(lines[k]) == Some(objects[k])
      {
        ParseFormatLine(objects[k]);
      }
      Seqs.SplitOfJoin(lines, '\n');
      Seqs.FilterAll(lines, IsAccepted);
    }
  }

  /** The objects a listing of well-formed objects describes are those
      objects. */
  lemma ParsedListingOfListing(objects: seq<CliObject>)
    requires forall k :: 0 <= k < |objects| ==> Listable(objects[k])
    ensures ParsedListing(Listing(objects)) == objects
  {
    ListingRoundTrip(objects);
  }

  /** The content `saveIndex` writes: `{ "objects": objects }`. */
  datatype IndexFile = IndexFile(objects: seq<CliObject>)

  /** The state of one `NsiCliObjects`: the in-memory list, and the index file
      (None while the file does not exist). */
  datatype Store = Store(objects: seq<CliObject>, index: Option<IndexFile>)

  /** What `getObjects()` hands its callers: nothing, an array of objects, or
      the parsed index file, which is the `{ objects }` wrapper even though the
      code reads it as an array. */
  datatype Listed = NoListing | Records(objects: seq<CliObject>) | Wrapper(file: IndexFile)

  /** `getObjects()` as written: the in-memory list when non-empty, else the
      parsed index file as it stands. */
  function GetObjects(st: Store): (r: Listed)
    ensures r.Records? <==> st.objects != []
    ensures r.Records? ==> r.objects == st.objects
    ensures r.Wrapper? <==> st.objects == [] && st.index.Some?
    ensures r.Wrapper? ==> r.file == st.index.value
  {
    if |st.objects| == 0 then
      match st.index
      case None => NoListing
      case Some(file) => Wrapper(file)
    else Records(st.objects)
  }

  /** The read `getObjects` evidently means: the list inside the saved
      wrapper. */
  function GetObjectsIntended(st: Store): (r: Listed)
    ensures !r.Wrapper?
    ensures r.NoListing? <==> st.objects == [] && st.index.None?
    ensures st.objects != [] ==> r == Records(st.objects)
    ensures st.objects == [] && st.index.Some? ==> r == Records(st.index.value.objects)
  {
    if |st.objects| == 0 then
      match st.index
      case None => NoListing
      case Some(file) => Records(file.objects)
    else Records(st.objects)
  }

  /** `getObjectCount()`. */
  function GetObjectCount(st: Store): (n: nat)
    ensures n == 0 <==> st.objects == []
    ensures n > 0 ==> GetObjects(st) == Records(st.objects) && |GetObjects(st).objects| == n
  {
    |st.objects|
  }

  /** `resetObjs()`: the in-memory list is emptied; the file stays. */
  function ResetObjs(st: Store): (r: Store)
    ensures GetObjectCount(r) == 0 && r.index == st.index
  {
    st.(objects := [])
  }

  /** `reset()`: the list is emptied and the SDF_CLI directory, index file
      included, is removed and recreated empty. */
  function Reset(st: Store): (r: Store)
    ensures GetObjectCount(r) == 0 && GetObjects(r) == NoListing
  {
    Store([], None)
  }

  /** `saveIndex(objects)`. */
  function SaveIndex(objects: seq<CliObject>): (f: IndexFile)
    ensures f.objects == objects
  {
    IndexFile(objects)
  }

  /** `createIndex(objects)`: the index file is rewritten and the in-memory
      list becomes `objects`. */
  function CreateIndex(st: Store, objects: seq<CliObject>): (r: Store)
    ensures r.objects == objects && GetObjectCount(r) == |objects|
    ensures objects != [] ==> GetObjects(r) == Records(objects)
  {
    Store(objects, Some(SaveIndex(objects)))
  }

  /** Once the in-memory list is gone, the saved server index is not read
      back as the list that was saved but as its wrapper record. */
  lemma SavedServerIndexReadsBackWrapped(st: Store, objects: seq<CliObject>)
    ensures GetObjects(ResetObjs(CreateIndex(st, objects))) == Wrapper(IndexFile(objects))
    ensures GetObjects(ResetObjs(CreateIndex(st, objects))) != Records(objects)
  {
  }

  /** With the intended read, the saved server index reads back as the list
      that was saved. */
  lemma SavedServerIndexIntendedRoundTrip(st: Store, objects: seq<CliObject>)
    ensures GetObjectsIntended(ResetObjs(CreateIndex(st, objects))) == Records(objects)
    ensures GetObjectsIntended(CreateIndex(st, objects)) == Records(objects)
  {
  }

  /** The ids of a list of server objects, position by position. */
  function Ids(objects: seq<CliObject>): (ids: seq<string>)
    ensures |ids| == |objects|
    ensures forall i :: 0 <= i < |objects| ==> ids[i] == objects[i].id
  {
    seq(|objects|, i requires 0 <= i < |objects| => objects[i].id)
  }

  /** `getObjectRecord(id)` as written: the first object with `id`, kept only
      when its position passes `index && index > 0`, so the head of the
      listing is never found. */
  function GetObjectRecord(objects: seq<CliObject>, id: string): (r: Option<CliObject>)
    ensures r.Some? <==> id in Ids(objects) && objects[0].id != id
    ensures r.Some? ==> exists k :: 0 < k < |objects| && objects[k] == r.value && id !in Ids(objects)[..k]
    ensures r.Some? ==> r.value.id == id
  {
    var index := Seqs.IndexOf(Ids(objects), id);
    if index != 0 && index > 0 then Some(objects[index]) else None
  }

  /** The lookup `getObjectRecord` evidently means: the first object with
      the id, wherever it stands. */
  function FindObjectRecord(objects: seq<CliObject>, id: string): (r: Option<CliObject>)
    ensures r.Some? <==> id in Ids(objects)
    ensures r.Some? ==> exists k :: 0 <= k < |objects| && objects[k] == r.value && id !in Ids(objects)[..k]
    ensures r.Some? ==> r.value.id == id
  {
    var index := Seqs.IndexOf(Ids(objects), id);
    if index >= 0 then Some(objects[index]) else None
  }

  /** The written lookup and the intended one differ exactly when the id's
      first object heads the listing. */
  lemma GetObjectRecordMissesHead(objects: seq<CliObject>, id: string)
    ensures GetObjectRecord(objects, id) ==
      if |objects| > 0 && objects[0].id == id then None else FindObjectRecord(objects, id)
  {
    if |objects| > 0 && objects[0].id != id {
      assert Ids(objects)[0] != id;
    }
  }

  /** A one-line listing whose only object the written lookup cannot find. */
  lemma GetObjectRecordHeadCounterexample()
    ensures var o := CliObject("savedsearch", "customsearch_a");
      GetObjectRecord([o], o.id).None? && FindObjectRecord([o], o.id) == Some(o)
  {
    var o := CliObject("savedsearch", "customsearch_a");
    assert Ids([o])[0] == o.id;
  }

  /** The `{id, value}` entries `verify()` builds for a local list: one per
      local object, in order, `value` being whether `getObjectRecord` finds
      the id among the server objects. */
  function VerifyValues(local: seq<LocalObjects.ObjectIndex>, server: seq<CliObject>)
    : seq<LocalObjects.FieldValue>
  {
    seq(|local|, k requires 0 <= k < |local| =>
      LocalObjects.FieldValue(local[k].id, GetObjectRecord(server, local[k].id).Some?))
  }

  /** The ids of the local objects `getObjectRecord` finds among the server
      objects, in local order. */
  function DeployedIds(local: seq<LocalObjects.ObjectIndex>, server: seq<CliObject>): seq<string>
  {
    if |local| == 0 then []
    else
      var last := local[|local| - 1];
      DeployedIds(local[..|local| - 1], server)
        + (if GetObjectRecord(server, last.id).Some? then [last.id] else [])
  }

  /** Against an empty server list nothing is found: position -1 fails
      `index > 0`. */
  lemma {:induction false} DeployedIdsOfEmptyServer(local: seq<LocalObjects.ObjectIndex>)
    ensures DeployedIds(local, []) == []
  {
    if |local| > 0 {
      DeployedIdsOfEmptyServer(local[..|local| - 1]);
    }
  }

  /** Whether a `{id, value}` entry marks its object as found. */
  predicate IsFound(v: LocalObjects.FieldValue)
  {
    v.value
  }

  /** The ids of the entries marked found, in entry order: the entries kept
      by `filter` on `value`, mapped to their `id`. */
  function FoundIds(values: seq<LocalObjects.FieldValue>): seq<string>
  {
    var kept := Seqs.Filter(values, IsFound);
    seq(|kept|, i requires 0 <= i < |kept| => kept[i].id)
  }

  /** The ids the import names are exactly the ids of the `{id, value}`
      entries whose value is true, in local order. */
  lemma {:induction false} DeployedIdsAreFound(local: seq<LocalObjects.ObjectIndex>, server: seq<CliObject>)
    ensures DeployedIds(local, server) == FoundIds(VerifyValues(local, server))
  {
    if |local| > 0 {
      var n := |local| - 1;
      DeployedIdsAreFound(local[..n], server);
      var vs := VerifyValues(local, server);
      assert VerifyValues(local[..n], server) == vs[..n];
      assert vs == vs[..n] + [vs[n]];
      Seqs.FilterSnoc(vs[..n], vs[n], IsFound);
    }
  }

  /** The list-building part of `verify()`: the `{id, value}` entries and
      the ids found, both in local order. No local list (undefined) gives
      nothing. */
  method PlanVerify(local: Option<seq<LocalObjects.ObjectIndex>>, server: seq<CliObject>)
    returns (values: seq<LocalObjects.FieldValue>, deployedIds: seq<string>)
    ensures local.None? ==> values == [] && deployedIds == []
    ensures local.Some? ==> |values| == |local.value|
    ensures local.Some? ==> forall k :: 0 <= k < |values| ==>
      && values[k].id == local.value[k].id
      && (values[k].value <==> GetObjectRecord(server, local.value[k].id).Some?)
    ensures local.Some? ==> values == VerifyValues(local.value, server)
    ensures local.Some? ==> deployedIds == DeployedIds(local.value, server)
    ensures deployedIds == FoundIds(values)
  {
    values, deployedIds := [], [];
    if local.Some? {
      var objects := local.value;
      var i := 0;
      while i < |objects|
        invariant 0 <= i <= |objects|
        invariant |values| == i
        invariant forall k :: 0 <= k < i ==>
          && values[k].id == objects[k].id
          && (values[k].value <==> GetObjectRecord(server, objects[k].id).Some?)
        invariant deployedIds == DeployedIds(objects[..i], server)
      {
        var id := objects[i].id;
        var found := GetObjectRecord(server, id).Some?;
        assert objects[..i + 1][..i] == objects[..i];
        if found {
          deployedIds := deployedIds + [id];
        }
        values := values + [LocalObjects.FieldValue(id, found)];
        i := i + 1;
      }
      assert objects[..i] == objects;
      assert values == VerifyValues(objects, server);
      DeployedIdsAreFound(objects, server);
    }
  }

  /** The `--scriptid` argument of the import that `verify()` starts: the
      deployed ids joined by single spaces ("" when none was found). */
  function ImportArgument(deployedIds: seq<string>): string
  {
    Seqs.Join(deployedIds, ' ')
  }

  /** The argument names the ids exactly: splitting it at spaces gives them
      back, provided there is at least one and none holds a space. */
  lemma ImportArgumentRecoversIds(deployedIds: seq<string>)
    requires |deployedIds| >= 1
    requires forall i :: 0 <= i < |deployedIds| ==> ' ' !in deployedIds[i]
    ensures Seqs.Split(ImportArgument(deployedIds), ' ') == deployedIds
  {
    Seqs.SplitOfJoin(deployedIds, ' ');
  }

  const ManifestPrefix := "<deploy><objects><path>~/Objects/"
  const ManifestSuffix := ".xml</path></objects></deploy>"

  /** The file a manifest is written to, and its text. */
  datatype FileWrite = FileWrite(path: string, content: string)

  /** The outcome of `saveDeployFile`: its boolean result and the file it
      wrote, if any. */
  datatype DeploySave = DeploySave(saved: bool, written: Option<FileWrite>)

  /** The deploy manifest path the constructor derives: `deploy.xml` in the
      SDF project, when that path is defined (truthy). */
  function DeployFilePath(sdfProjectPath: Option<string>): (r: Option<string>)
    ensures r.Some? <==> sdfProjectPath.Some? && sdfProjectPath.value != ""
    ensures r.Some? ==>
      && r.value != "" && '/' in r.value
      && Paths.Parent(r.value) == sdfProjectPath.value && Paths.Leaf(r.value) == "deploy.xml"
  {
    if sdfProjectPath.Some? && sdfProjectPath.value != "" then
      Paths.JoinPathSplits(sdfProjectPath.value, "deploy.xml");
      Some(Paths.JoinPath(sdfProjectPath.value, "deploy.xml"))
    else None
  }

  /** The object a manifest deploys: the text between the fixed prefix and
      suffix, when the content has that shape. */
  function ManifestObjectId(content: string): Option<string>
  {
    if |content| >= |ManifestPrefix| + |ManifestSuffix|
       && content[..|ManifestPrefix|] == ManifestPrefix
       && content[|content| - |ManifestSuffix|..] == ManifestSuffix
    then Some(content[|ManifestPrefix|..|content| - |ManifestSuffix|])
    else None
  }

  /** `saveDeployFile(id)`: when the deploy path is defined, it writes a
      manifest naming exactly the object `id`, as the file
      `~/Objects/<id>.xml`, and returns true; otherwise it writes nothing and
      returns false. */
  function SaveDeployFile(deployFilePath: Option<string>, id: string): (r: DeploySave)
    ensures r.saved <==> deployFilePath.Some? && deployFilePath.value != ""
    ensures r.saved ==> r.written.Some? && r.written.value.path == deployFilePath.value
    ensures r.saved ==> ManifestObjectId(r.written.value.content) == Some(id)
    ensures !r.saved ==> r.written.None?
  {
    if deployFilePath.Some? && deployFilePath.value != "" then
      var content := ManifestPrefix + id + ManifestSuffix;
      assert content[..|ManifestPrefix|] == ManifestPrefix;
      assert content[|content| - |ManifestSuffix|..] == ManifestSuffix;
      assert content[|ManifestPrefix|..|content| - |ManifestSuffix|] == id;
      DeploySave(true, Some(FileWrite(deployFilePath.value, content)))
    else DeploySave(false, None)
  }
}

=== FILE: nsi.dfy ===
/** The extension's coordinator (`Nsi`, src/Nsi.ts): the project paths it
    derives from the workspace, the status-bar text, and the commands that
    reset, rebuild and verify the local and the server index. The state is
    the pair of the two index stores; each command is the list
    transformation its promise chain performs once it has settled. */
module Nsi {
  import opened Optional
  import Seqs
  import Text
  import Paths
  import LocalObjects
  import CliObjects
  import TreeItems
  import ObjectTree
  import ObjTree

  // ---------------------------------------------------------------- paths

  /** `workspacePath`: the first workspace folder, when there is one. */
  function WorkspacePath(folders: Option<seq<string>>): Option<string>
  {
    if folders.Some? && |folders.value| > 0 then Some(folders.value[0]) else None
  }

  /** The SDF project ("src"), its objects directory and the SuiteDeploy
      project directory. */
  datatype ProjectPaths = ProjectPaths(sdfProject: string, sdfObjects: string, nsiProject: string)

  /** `path.join(dir, name)` for a single entry name, with what the join
      guarantees: the path splits back into `dir` and `name`. */
  function Child(dir: string, name: string): (p: string)
    requires '/' !in name
    ensures '/' in p && Paths.Parent(p) == dir && Paths.Leaf(p) == name
  {
    Paths.JoinPathSplits(dir, name);
    Paths.JoinPath(dir, name)
  }

  /** The paths the constructor derives, only when the workspace path is
      defined and non-empty (truthy): `src` in the workspace, and
      `Objects` and `SuiteDeploy` in `src`. */
  function DerivePaths(workspace: Option<string>): (r: Option<ProjectPaths>)
    ensures r.Some? <==> workspace.Some? && workspace.value != ""
    ensures r.Some? ==>
      && '/' in r.value.sdfProject && '/' in r.value.sdfObjects && '/' in r.value.nsiProject
      && Paths.Parent(r.value.sdfProject) == workspace.value && Paths.Leaf(r.value.sdfProject) == "src"
      && Paths.Parent(r.value.sdfObjects) == r.value.sdfProject && Paths.Leaf(r.value.sdfObjects) == "Objects"
      && Paths.Parent(r.value.nsiProject) == r.value.sdfProject && Paths.Leaf(r.value.nsiProject) == "SuiteDeploy"
  {
    if workspace.Some? && workspace.value != "" then
      var src := Child(workspace.value, "src");
      Some(ProjectPaths(src, Child(src, "Objects"), Child(src, "SuiteDeploy")))
    else None
  }

  /** The directories and index files the two index classes derive in their
      constructors, and the deploy manifest path. */
  datatype IndexPaths = IndexPaths(
    localRoot: string, localIndex: string,
    serverRoot: string, serverIndex: string,
    deployFile: Option<string>)

  /** The message of the TypeError `path.join` raises for an undefined
      segment. */
  const UndefinedPathMessage := "The \"path\" argument must be of type string. Received undefined"

  /** An index directory `name` in the SuiteDeploy directory, and the
      `index.json` file in it. */
  datatype IndexLocation = IndexLocation(root: string, index: string)

  function IndexLocationIn(nsiProject: string, name: string): (r: IndexLocation)
    requires '/' !in name
    ensures '/' in r.root && Paths.Parent(r.root) == nsiProject && Paths.Leaf(r.root) == name
    ensures '/' in r.index && Paths.Parent(r.index) == r.root && Paths.Leaf(r.index) == "index.json"
  {
    var root := Child(nsiProject, name);
    IndexLocation(root, Child(root, "index.json"))
  }

  /** The index directories and files in the SuiteDeploy directory
      `nsiProject`: `Objects/index.json` for the local index and
      `SDF_CLI/index.json` for the server one. */
  function IndexFilesIn(nsiProject: string, deployFile: Option<string>): (r: IndexPaths)
    ensures '/' in r.localRoot && '/' in r.localIndex && '/' in r.serverRoot && '/' in r.serverIndex
    ensures Paths.Parent(r.localRoot) == nsiProject && Paths.Leaf(r.localRoot) == "Objects"
    ensures Paths.Parent(r.localIndex) == r.localRoot && Paths.Leaf(r.localIndex) == "index.json"
    ensures Paths.Parent(r.serverRoot) == nsiProject && Paths.Leaf(r.serverRoot) == "SDF_CLI"
    ensures Paths.Parent(r.serverIndex) == r.serverRoot && Paths.Leaf(r.serverIndex) == "index.json"
    ensures r.deployFile == deployFile
  {
    var local := IndexLocationIn(nsiProject, "Objects");
    var server := IndexLocationIn(nsiProject, "SDF_CLI");
    IndexPaths(local.root, local.index, server.root, server.index, deployFile)
  }

  /** The paths the two index classes derive from the workspace, with
      `deploy.xml` in the SDF project as the deploy manifest. Without a
      project path, `path.join` receives `undefined` and the construction
      throws. */
  function IndexPathsOf(workspace: Option<string>): (r: Result<IndexPaths>)
    ensures r.Ok? <==> DerivePaths(workspace).Some?
    ensures r.Thrown? ==> r.message == UndefinedPathMessage
    ensures r.Ok? ==>
      var p := DerivePaths(workspace).value;
      && r.value == IndexFilesIn(p.nsiProject, r.value.deployFile)
      && r.value.deployFile == CliObjects.DeployFilePath(Some(p.sdfProject))
      && r.value.deployFile.Some?
  {
    var derived := DerivePaths(workspace);
    if derived.None? then Thrown(UndefinedPathMessage)
    else
      var p := derived.value;
      Ok(IndexFilesIn(p.nsiProject, CliObjects.DeployFilePath(Some(p.sdfProject))))
  }

  /** The two indexes live in different files: their directories differ in
      the last name. */
  lemma IndexFilesDistinct(workspace: Option<string>)
    requires workspace.Some? && workspace.value != ""
    ensures IndexPathsOf(workspace).Ok?
    ensures IndexPathsOf(workspace).value.localIndex != IndexPathsOf(workspace).value.serverIndex
  {
    var q := IndexPathsOf(workspace).value;
    assert Paths.Leaf(q.localRoot) != Paths.Leaf(q.serverRoot);
  }

  // ----------------------------------------------------------- status bar

  /** `updateStatusBar()`'s text for the two counts: "SuiteDeploy L / S",
      or "SuiteDeploy L" when the server count is 0 (falsy). The server
      count is shown exactly when it is not 0, and both counts can be read
      back from the text. */
  function StatusText(localCount: nat, serverCount: nat): (r: string)
    ensures r == "SuiteDeploy " + Seqs.Join(StatusWords(localCount, serverCount), ' ')
    ensures serverCount == 0 <==> '/' !in r
    ensures ParseStatusText(r) == Some((localCount, serverCount))
  {
    StatusTextWords(localCount, serverCount);
    StatusWordsShowServerCount(localCount, serverCount);
    StatusWordsReadBack(localCount, serverCount);
    "SuiteDeploy"
      + if serverCount != 0
        then " " + Text.NatToString(localCount) + " / " + Text.NatToString(serverCount)
        else " " + Text.NatToString(localCount)
  }

  /** The counts a status text shows; a missing server count reads as 0. */
  function ParseStatusText(text: string): Option<(nat, nat)>
  {
    if |text| >= 12 && text[..12] == "SuiteDeploy " then
      var parts := Seqs.Split(text[12..], ' ');
      if |parts| == 1 && parts[0] != "" && Text.IsDigits(parts[0]) then
        Some((Text.ParseNat(parts[0]), 0))
      else if |parts| == 3 && parts[0] != "" && Text.IsDigits(parts[0]) && parts[1] == "/"
              && parts[2] != "" && Text.IsDigits(parts[2]) then
        Some((Text.ParseNat(parts[0]), Text.ParseNat(parts[2])))
      else None
    else None
  }

  /** The space-separated words after "SuiteDeploy " in a status text. */
  function StatusWords(localCount: nat, serverCount: nat): seq<string>
  {
    if serverCount != 0
    then [Text.NatToString(localCount), "/", Text.NatToString(serverCount)]
    else [Text.NatToString(localCount)]
  }

  /** The status text is "SuiteDeploy " followed by its words joined with
      spaces. */
  lemma StatusTextWords(localCount: nat, serverCount: nat)
    ensures "SuiteDeploy " + Seqs.Join(StatusWords(localCount, serverCount), ' ')
      == "SuiteDeploy"
         + (if serverCount != 0
            then " " + Text.NatToString(localCount) + " / " + Text.NatToString(serverCount)
            else " " + Text.NatToString(localCount))
  {
    var words := StatusWords(localCount, serverCount);
    var l, s := Text.NatToString(localCount), Text.NatToString(serverCount);
    if serverCount != 0 {
      assert words == [l, "/", s];
      assert words[1..][1..] == [s];
      assert Seqs.Join(words[1..], ' ') == "/" + [' '] + s;
      assert Seqs.Join(words, ' ') == l + [' '] + ("/" + [' '] + s);
      assert "SuiteDeploy " + (l + [' '] + ("/" + [' '] + s)) == "SuiteDeploy" + (" " + l + " / " + s);
    } else {
      assert words == [l];
      assert "SuiteDeploy " + l == "SuiteDeploy" + (" " + l);
    }
  }

  /** The '/' before a server count appears exactly when that count is not
      0; the decimal texts themselves hold digits only. */
  lemma StatusWordsShowServerCount(localCount: nat, serverCount: nat)
    ensures serverCount == 0
      <==> '/' !in "SuiteDeploy " + Seqs.Join(StatusWords(localCount, serverCount), ' ')
  {
    var l := Text.NatToString(localCount);
    var text := "SuiteDeploy " + Seqs.Join(StatusWords(localCount, serverCount), ' ');
    if serverCount != 0 {
      var words := StatusWords(localCount, serverCount);
      var sc := Text.NatToString(serverCount);
      assert words == [l, "/", sc];
      assert words[1..][1..] == [sc];
      assert Seqs.Join(words[1..], ' ') == "/" + [' '] + sc;
      assert Seqs.Join(words, ' ') == l + [' '] + ("/" + [' '] + sc);
      assert text[12 + |l| + 1] == '/';
    } else {
      assert text == "SuiteDeploy " + l;
      assert !Text.IsDigit('/');
      forall i | 0 <= i < |text|
        ensures text[i] != '/'
      {
        if i >= 12 {
          assert text[i] == l[i - 12];
        }
      }
    }
  }

  /** The words of a status text parse back to the two counts. */
  lemma StatusWordsReadBack(localCount: nat, serverCount: nat)
    ensures ParseStatusText("SuiteDeploy " + Seqs.Join(StatusWords(localCount, serverCount), ' '))
      == Some((localCount, serverCount))
  {
    var words := StatusWords(localCount, serverCount);
    assert forall i :: 0 <= i < |words| ==> ' ' !in words[i];
    Text.ParseNatToString(localCount);
    Text.ParseNatToString(serverCount);
    var text := "SuiteDeploy " + Seqs.Join(words, ' ');
    assert text[..12] == "SuiteDeploy " && text[12..] == Seqs.Join(words, ' ');
    Seqs.SplitOfJoin(words, ' ');
  }

  // ---------------------------------------------------------------- state

  /** The two index stores the coordinator owns. */
  datatype State = State(local: LocalObjects.Store, server: CliObjects.Store)

  /** The status text for a state. */
  function StatusBar(st: State): string
  {
    StatusText(LocalObjects.GetObjectCount(st.local), CliObjects.GetObjectCount(st.server))
  }

  /** `reset()`: both lists emptied and the whole SuiteDeploy directory,
      with both index files, removed. The bar then reads "SuiteDeploy 0". */
  function Reset(st: State): (r: State)
    ensures LocalObjects.GetObjects(r.local).None? && CliObjects.GetObjects(r.server).NoListing?
    ensures StatusBar(r) == "SuiteDeploy 0"
  {
    State(LocalObjects.Reset(st.local), CliObjects.Reset(st.server))
  }

  /** `resetNsiObjects()`: only the local index is reset. */
  function ResetNsiObjects(st: State): (r: State)
    ensures r.server == st.server
    ensures LocalObjects.GetObjects(r.local).None?
    ensures ParseStatusText(StatusBar(r)) == Some((0, CliObjects.GetObjectCount(st.server)))
  {
    st.(local := LocalObjects.Reset(st.local))
  }

  /** `resetNsiObjs()`: only the server index is reset. */
  function ResetNsiObjs(st: State): (r: State)
    ensures r.local == st.local
    ensures CliObjects.GetObjects(r.server).NoListing?
    ensures StatusBar(r) == "SuiteDeploy " + Text.NatToString(LocalObjects.GetObjectCount(st.local))
  {
    st.(server := CliObjects.Reset(st.server))
  }

  /** After `reset()` both views, refreshed, are empty at every level. */
  lemma ResetEmptiesViews(st: State, indexPath: string, element: Option<TreeItems.TreeItem>)
    ensures ObjectTree.GetObjects(LocalObjects.GetObjects(Reset(st).local), indexPath, element) == []
    ensures ObjTree.GetObjs(CliObjects.GetObjects(Reset(st).server), indexPath, element) == Ok([])
  {
  }

  // ------------------------------------------------------------- commands

  /** `retrieveServerObjects()` once the CLI call has settled: with
      `Some(output)` the server store is reset, then holds the parsed listing
      in memory and in its index file; with None the call failed, the
      `.catch` only logs, and the store stays as `reset()` left it. The
      local store is untouched either way. */
  function RetrieveServerObjects(st: State, output: Option<string>): (r: State)
    ensures r.local == st.local
    ensures output.Some? ==> r.server.objects == CliObjects.ParsedListing(output.value)
    ensures output.Some? ==> r.server.index == Some(CliObjects.SaveIndex(CliObjects.ParsedListing(output.value)))
    ensures output.None? ==> r.server == CliObjects.Reset(st.server)
  {
    match output
    case Some(text) =>
      st.(server := CliObjects.CreateIndex(CliObjects.Reset(st.server), CliObjects.ParsedListing(text)))
    case None => st.(server := CliObjects.Reset(st.server))
  }

  /** After a failed CLI call the server view is empty at every level, and
      the text the next `updateStatusBar()` would set holds only the local
      count. The failure path itself does not refresh the bar: the
      `.catch` only logs, so the displayed text stays what it was. */
  lemma RetrieveFailureEmptiesServerView(st: State, indexPath: string, element: Option<TreeItems.TreeItem>)
    ensures ObjTree.GetObjs(CliObjects.GetObjects(RetrieveServerObjects(st, None).server), indexPath, element) == Ok([])
    ensures StatusBar(RetrieveServerObjects(st, None))
      == "SuiteDeploy " + Text.NatToString(LocalObjects.GetObjectCount(st.local))
  {
  }

  /** A CLI answer with no accepted line saves `{ objects: [] }` and leaves
      the list empty, so the server tree reads the wrapper back and throws;
      with the intended read it shows the INDEX item alone. */
  lemma RetrieveNothingBreaksServerTree(st: State, indexPath: string)
    ensures var server := RetrieveServerObjects(st, Some("")).server;
      && ObjTree.GetObjs(CliObjects.GetObjects(server), indexPath, None).Thrown?
      && ObjTree.GetObjs(CliObjects.GetObjectsIntended(server), indexPath, None)
           == Ok([TreeItems.IndexItem(indexPath, None)])
  {
    assert Seqs.Split("", '\n') == [""];
    assert !CliObjects.IsAccepted("");
    assert Seqs.Filter([""], CliObjects.IsAccepted) == [];
    var root := ObjTree.RootLevel([], indexPath);
    assert |ObjTree.Types([])| == 0;
    assert root == [TreeItems.IndexItem(indexPath, None)];
  }

  /** A refresh from a listing of well-formed objects leaves exactly those
      objects in the server store, and the bar counts them. */
  lemma RetrieveListingRoundTrip(st: State, objects: seq<CliObjects.CliObject>)
    requires forall k :: 0 <= k < |objects| ==> CliObjects.Listable(objects[k])
    ensures RetrieveServerObjects(st, Some(CliObjects.Listing(objects))).server.objects == objects
    ensures ParseStatusText(StatusBar(RetrieveServerObjects(st, Some(CliObjects.Listing(objects)))))
      == Some((LocalObjects.GetObjectCount(st.local), |objects|))
  {
    CliObjects.ParsedListingOfListing(objects);
  }

  /** `processLocalObjects()` over the directory entries of the SDF objects
      directory: the local store is reset, `initializeFolders()` also wipes
      the server index file (the server list in memory stays), the scan
      rebuilds the local list, and `createIndex(getObjects())` saves it. An
      empty scan finds no index file to fall back on and saves an index
      without objects. */
  method ProcessLocalObjects(st: State, sdfObjectsPath: string, localRoot: string,
                             entries: seq<string>, parseXml: string -> Option<LocalObjects.XmlRoot>)
    returns (r: State)
    ensures var accepted := Seqs.Filter(entries, LocalObjects.Converts(sdfObjectsPath, parseXml));
      && r.server == st.server.(index := None)
      && |r.local.objects| == |accepted|
      && (forall k :: 0 <= k < |r.local.objects| ==>
            LocalObjects.ConvertedFrom(r.local.objects[k], accepted[k], sdfObjectsPath, localRoot, parseXml))
      && r.local.index ==
           Some(LocalObjects.SaveIndex(if r.local.objects == [] then None else Some(r.local.objects)))
      && ParseStatusText(StatusBar(r)) == Some((|accepted|, CliObjects.GetObjectCount(st.server)))
  {
    var local := LocalObjects.Reset(st.local);
    var server := st.server.(index := None);
    local := LocalObjects.CreateObjects(local, sdfObjectsPath, localRoot, entries, parseXml);
    local := LocalObjects.CreateIndex(local, LocalObjects.GetObjects(local));
    r := State(local, server);
  }

  /** The outcome of `verify()`: the state it leaves, the `--scriptid`
      argument of the import it starts (none when it threw first), and
      whether it threw. */
  datatype Verified = Verified(state: State, importArgument: Option<string>, threw: bool)

  /** The body of `verify()` after its `await`, with the lookups made in the
      server list `lookup`, and the server store left as `server`: one entry
      per object of the local `getObjects()`, the `'deployed'` update of the
      local store, and the import of the ids found. */
  function VerifyAgainst(st: State, lookup: seq<CliObjects.CliObject>, server: CliObjects.Store): (r: Verified)
    ensures r.state.server == server
    ensures r.threw <==> r.importArgument.None?
    ensures |r.state.local.objects| == |st.local.objects|
    ensures forall k :: 0 <= k < |st.local.objects| ==>
      r.state.local.objects[k] == st.local.objects[k].(deployed := r.state.local.objects[k].deployed)
    ensures !r.threw ==> r.state.local.index == Some(LocalObjects.SaveIndex(Some(r.state.local.objects)))
    ensures r.threw ==> r.state.local.index == st.local.index
  {
    var objects := LocalObjects.GetObjects(st.local).GetOr([]);
    var values := CliObjects.VerifyValues(objects, lookup);
    var upd := LocalObjects.UpdateObjectFields(st.local, "deployed", values);
    var imported := if upd.threw then None
                    else Some(CliObjects.ImportArgument(CliObjects.DeployedIds(objects, lookup)));
    Verified(State(upd.store, server), imported, upd.threw)
  }

  /** The outcome of a verification from a non-empty in-memory list: no
      throw, the first record of each id gets `deployed` set to whether the
      lookup finds the id, every other record is unchanged, the index is
      saved, and the import names the ids found, in local order. */
  lemma VerifyFromMemory(st: State, lookup: seq<CliObjects.CliObject>, server: CliObjects.Store)
    requires st.local.objects != []
    ensures var r := VerifyAgainst(st, lookup, server);
      && !r.threw
      && r.importArgument == Some(CliObjects.ImportArgument(CliObjects.DeployedIds(st.local.objects, lookup)))
      && r.state.local.index == Some(LocalObjects.SaveIndex(Some(r.state.local.objects)))
      && |r.state.local.objects| == |st.local.objects|
      && forall k :: 0 <= k < |st.local.objects| ==>
           r.state.local.objects[k] ==
             var o := st.local.objects[k];
             if Seqs.IndexOf(LocalObjects.Ids(st.local.objects), o.id) == k
             then o.(deployed := Some(CliObjects.GetObjectRecord(lookup, o.id).Some?))
             else o
  {
    var values := CliObjects.VerifyValues(st.local.objects, lookup);
    LocalObjects.UpdateDeployedPerRecord(st.local, values);
  }

  /** What a verification does to the local store. It throws exactly when
      the in-memory list is empty but the index file lists objects: their
      ids are then missing from the list the update writes into. Otherwise
      it behaves as from memory; from an empty list and no listed objects it
      only saves the empty list. */
  lemma VerifyAgainstSpec(st: State, lookup: seq<CliObjects.CliObject>, server: CliObjects.Store)
    ensures var r := VerifyAgainst(st, lookup, server);
      && r.state.server == server
      && (r.threw <==> st.local.objects == [] && LocalObjects.GetObjects(st.local).GetOr([]) != [])
      && (r.threw ==> r.importArgument.None? && r.state.local.index == st.local.index)
      && (!r.threw && st.local.objects == [] ==>
            && r.importArgument == Some("")
            && r.state.local == LocalObjects.Store([], Some(LocalObjects.SaveIndex(Some([])))))
  {
    var objects := LocalObjects.GetObjects(st.local).GetOr([]);
    var values := CliObjects.VerifyValues(objects, lookup);
    if st.local.objects != [] {
      VerifyFromMemory(st, lookup, server);
    } else if objects != [] {
      assert values[0].id !in LocalObjects.Ids(st.local.objects);
    } else {
      assert values == [];
    }
  }

  /** `verify()` as it is scheduled: `await nsi.retrieveServerObjects()`
      waits for nothing, since that method returns `void`. The server reset
      has run but the listing has not arrived, so every lookup is made in
      the empty list; the listing lands after `verify()` has finished. */
  function VerifyAsScheduled(st: State, output: Option<string>): (r: Verified)
    ensures r.state.server == RetrieveServerObjects(st, output).server
    ensures !r.threw ==> r.importArgument == Some("")
  {
    CliObjects.DeployedIdsOfEmptyServer(LocalObjects.GetObjects(st.local).GetOr([]));
    VerifyAgainst(st, CliObjects.Reset(st.server).objects, RetrieveServerObjects(st, output).server)
  }

  /** `verify()` as evidently intended: the lookups are made in the listing
      the refresh has just retrieved. */
  function VerifyAwaited(st: State, output: Option<string>): (r: Verified)
    ensures r.state.server == RetrieveServerObjects(st, output).server
    ensures output.Some? && !r.threw ==>
      r.importArgument == Some(CliObjects.ImportArgument(CliObjects.DeployedIds(
        LocalObjects.GetObjects(st.local).GetOr([]), CliObjects.ParsedListing(output.value))))
    ensures output.None? && !r.threw ==> r.importArgument == Some("")
  {
    var server := RetrieveServerObjects(st, output).server;
    CliObjects.DeployedIdsOfEmptyServer(LocalObjects.GetObjects(st.local).GetOr([]));
    VerifyAgainst(st, server.objects, server)
  }

  /** As scheduled, a verification with local objects marks every one of
      them undeployed and imports nothing, whatever the server lists; the
      server store ends as a refresh leaves it. */
  lemma VerifyAsScheduledMarksNothing(st: State, output: Option<string>)
    requires st.local.objects != []
    ensures var r := VerifyAsScheduled(st, output);
      && !r.threw
      && r.importArgument == Some("")
      && r.state.server == RetrieveServerObjects(st, output).server
      && |r.state.local.objects| == |st.local.objects|
      && forall k :: 0 <= k < |st.local.objects| ==>
           r.state.local.objects[k] ==
             var o := st.local.objects[k];
             if Seqs.IndexOf(LocalObjects.Ids(st.local.objects), o.id) == k
             then o.(deployed := Some(false))
             else o
  {
    VerifyFromMemory(st, [], RetrieveServerObjects(st, output).server);
    CliObjects.DeployedIdsOfEmptyServer(st.local.objects);
  }

  /** Awaited, a verification from a listing of well-formed objects marks
      each local object deployed exactly when the lookup finds it in that
      listing, and imports the ids found. */
  lemma VerifyAwaitedMarksListed(st: State, objects: seq<CliObjects.CliObject>)
    requires st.local.objects != []
    requires forall k :: 0 <= k < |objects| ==> CliObjects.Listable(objects[k])
    ensures var r := VerifyAwaited(st, Some(CliObjects.Listing(objects)));
      && !r.threw
      && r.importArgument == Some(CliObjects.ImportArgument(CliObjects.DeployedIds(st.local.objects, objects)))
      && r.state.server.objects == objects
      && |r.state.local.objects| == |st.local.objects|
      && forall k :: 0 <= k < |st.local.objects| ==>
           r.state.local.objects[k] ==
             var o := st.local.objects[k];
             if Seqs.IndexOf(LocalObjects.Ids(st.local.objects), o.id) == k
             then o.(deployed := Some(CliObjects.GetObjectRecord(objects, o.id).Some?))
             else o
  {
    RetrieveListingRoundTrip(st, objects);
    var server := RetrieveServerObjects(st, Some(CliObjects.Listing(objects))).server;
    VerifyFromMemory(st, server.objects, server);
  }

  /** The two schedules disagree: a local object that the server lists
      second (so that the lookup finds it) is marked undeployed as
      scheduled and deployed when awaited. */
  lemma VerifyScheduleCounterexample(o: LocalObjects.ObjectIndex, other: CliObjects.CliObject)
    requires other.id != o.id
    requires CliObjects.Listable(other) && CliObjects.Listable(CliObjects.CliObject(o.objectType, o.id))
    ensures
      var listed := [other, CliObjects.CliObject(o.objectType, o.id)];
      var st := State(LocalObjects.Store([o], None), CliObjects.Store([], None));
      && VerifyAsScheduled(st, Some(CliObjects.Listing(listed))).state.local.objects[0].deployed == Some(false)
      && VerifyAwaited(st, Some(CliObjects.Listing(listed))).state.local.objects[0].deployed == Some(true)
  {
    var listed := [other, CliObjects.CliObject(o.objectType, o.id)];
    var st := State(LocalObjects.Store([o], None), CliObjects.Store([], None));
    var output := Some(CliObjects.Listing(listed));
    assert Seqs.IndexOf(LocalObjects.Ids(st.local.objects), o.id) == 0 by {
      assert LocalObjects.Ids([o])[0] == o.id;
      Seqs.IndexOfUnique(LocalObjects.Ids([o]), o.id, 0);
    }
    assert CliObjects.GetObjectRecord(listed, o.id).Some? by {
      assert CliObjects.Ids(listed)[1] == o.id;
    }
    assert VerifyAsScheduled(st, output).state.local.objects[0].deployed == Some(false) by {
      VerifyAsScheduledMarksNothing(st, output);
    }
    assert VerifyAwaited(st, output).state.local.objects[0].deployed == Some(true) by {
      VerifyAwaitedMarksListed(st, listed);
    }
  }
}

=== FILE: obj_tree.dfy ===
/** The server objects tree (`NsiObjTreeProvider.getObjs`,
    src/models/obj/tree.ts): the same two levels as the local tree, built
    from what the server index's `getObjects()` returns. */
module ObjTree {
  import opened Optional
  import opened TreeItems
  import Seqs
  import Ordering
  import CliObjects

  type CliObject = CliObjects.CliObject

  /** The filter `object.type === element.id`. */
  function OfType(t: string): CliObject -> bool
  {
    (o: CliObject) => o.objectType == t
  }

  /** The item for one server object: label and id are the object id, the
      tooltip names type and id, the context is 'obj', and the click command
      `nsi.jsonFile` carries the placeholder argument 'TBD'. */
  function ChildItem(o: CliObject): (r: TreeItem)
    ensures r.itemLabel == r.id == o.id
    ensures r.tooltip == o.objectType + "  (id: " + o.id + ")"
    ensures r.collapsibleState == NotCollapsible && r.contextValue == "obj" && r.files.None?
    ensures r.command == Command("nsi.jsonFile", "", ["TBD"])
  {
    TreeItem(o.id, NotCollapsible, o.id, "", o.objectType + "  (id: " + o.id + ")",
             Command("nsi.jsonFile", "", ["TBD"]), "obj", None)
  }

  /** The types of a listing, position by position. */
  function Types(objects: seq<CliObject>): (ts: seq<string>)
    ensures |ts| == |objects|
    ensures forall i :: 0 <= i < |objects| ==> ts[i] == objects[i].objectType
  {
    seq(|objects|, i requires 0 <= i < |objects| => objects[i].objectType)
  }

  /** The root level for a listing: the INDEX item, then one collapsed
      node per distinct type of the listing, ascending. */
  function RootLevel(objects: seq<CliObject>, indexPath: string): (r: seq<TreeItem>)
    ensures |r| >= 1 && r[0] == IndexItem(indexPath, None)
    ensures forall k :: 1 <= k < |r| ==> r[k] == TypeItem(r[k].id, None) && r[k].id in Types(objects)
    ensures forall i :: 0 <= i < |objects| ==> exists k :: 1 <= k < |r| && r[k].id == objects[i].objectType
    ensures forall i, j :: 1 <= i < j < |r| ==> Ordering.Less(r[i].id, r[j].id)
  {
    var types := Types(objects);
    assert forall i :: 0 <= i < |objects| ==> types[i] in types;
    RootItems(IndexItem(indexPath, None), types, None)
  }

  /** The children of the type node `t`: the items of the listed objects
      of type `t`, in listing order. */
  function TypeChildren(objects: seq<CliObject>, t: string): (r: seq<TreeItem>)
    ensures var selected := Seqs.Filter(objects, OfType(t));
      && |r| == |selected|
      && forall k :: 0 <= k < |r| ==> r[k] == ChildItem(selected[k]) && selected[k].objectType == t
  {
    var selected := Seqs.Filter(objects, OfType(t));
    seq(|selected|, k requires 0 <= k < |selected| => ChildItem(selected[k]))
  }

  /** `getObjs(element)`, given what the server index's `getObjects()`
      returned: no items without a listing; the root level or a type node's
      children for an array; and a TypeError when `getObjects()` handed back
      the index file's wrapper record, which has neither `map` nor `filter`. */
  function GetObjs(listed: CliObjects.Listed, indexPath: string,
                   element: Option<TreeItem>): (r: Result<seq<TreeItem>>)
    ensures listed.NoListing? ==> r == Ok([])
    ensures listed.Wrapper? <==> r.Thrown?
    ensures listed.Records? && element.None? ==> r == Ok(RootLevel(listed.objects, indexPath))
    ensures listed.Records? && element.Some? ==> r == Ok(TypeChildren(listed.objects, element.value.id))
  {
    match listed
    case NoListing => Ok([])
    case Wrapper(_) =>
      if element.Some? then Thrown("index.filter is not a function")
      else Thrown("index.map is not a function")
    case Records(objects) =>
      if element.Some? then Ok(TypeChildren(objects, element.value.id))
      else Ok(RootLevel(objects, indexPath))
  }

  /** Every listed server object appears among the children of the type
      node whose id is its type. */
  lemma EveryObjUnderItsType(objects: seq<CliObject>, indexPath: string, o: CliObject)
    requires o in objects
    ensures var root := RootLevel(objects, indexPath);
      exists k :: 1 <= k < |root| && root[k].id == o.objectType
        && ChildItem(o) in TypeChildren(objects, root[k].id)
  {
    var root := RootLevel(objects, indexPath);
    var i :| 0 <= i < |objects| && objects[i] == o;
    var k :| 1 <= k < |root| && root[k].id == objects[i].objectType;
    var children := TypeChildren(objects, root[k].id);
    Seqs.FilterMembership(objects, OfType(o.objectType), o);
    var selected := Seqs.Filter(objects, OfType(o.objectType));
    var j :| 0 <= j < |selected| && selected[j] == o;
    assert children[j] == ChildItem(o);
  }

  /** Once the in-memory server list is emptied while its index file exists,
      the tree cannot be drawn: the saved wrapper is read back and the
      provider throws. With the intended read, the same state draws the
      saved listing. In the extension this state arises when a refresh
      parses no line, so that `objects` is empty, or when the extension
      starts with an index file present; `reset()` removes the file along
      with the list. */
  lemma ServerTreeAfterReload(st: CliObjects.Store, objects: seq<CliObject>, indexPath: string)
    ensures var reloaded := CliObjects.ResetObjs(CliObjects.CreateIndex(st, objects));
      && GetObjs(CliObjects.GetObjects(reloaded), indexPath, None).Thrown?
      && GetObjs(CliObjects.GetObjectsIntended(reloaded), indexPath, None).Ok?
      && |GetObjs(CliObjects.GetObjectsIntended(reloaded), indexPath, None).value|
           == 1 + |Ordering.SortedDistinct(Types(objects))|
  {
    var reloaded := CliObjects.ResetObjs(CliObjects.CreateIndex(st, objects));
    CliObjects.SavedServerIndexReadsBackWrapped(st, objects);
    CliObjects.SavedServerIndexIntendedRoundTrip(st, objects);
  }
}

=== FILE: object_tree.dfy ===
/** The local objects tree (`NsiObjectTreeProvider.getObjects`,
    src/models/object/tree.ts): the root level lists the index and the
    object types of the local index; a type node's children are the local
    objects of that type, labelled by their deployment state. */
module ObjectTree {
  import opened Optional
  import opened TreeItems
  import Seqs
  import Ordering
  import LocalObjects

  type ObjectIndex = LocalObjects.ObjectIndex

  /** The filter `object.type === element.id`. */
  function OfType(t: string): ObjectIndex -> bool
  {
    (o: ObjectIndex) => o.objectType == t
  }

  /** A child's label: "(D) " before the id when deployed, "(Undeployed) "
      when not, and the bare id when the state is unknown. The label ends
      with the id, and the deployment state can be read back from it. */
  function Label(o: ObjectIndex): (r: string)
    ensures |r| >= |o.id| && r[|r| - |o.id|..] == o.id
    ensures DeployedFromLabel(r, o.id) == o.deployed
    ensures o.deployed.None? ==> r == o.id
  {
    match o.deployed
    case Some(true) =>
      assert |"(D) " + o.id| != |"(Undeployed) " + o.id|;
      "(D) " + o.id
    case Some(false) =>
      assert |"(D) " + o.id| != |"(Undeployed) " + o.id|;
      "(Undeployed) " + o.id
    case None =>
      assert |o.id| < |"(D) " + o.id| && |o.id| < |"(Undeployed) " + o.id|;
      o.id
  }

  /** A child's tooltip: "(DEPLOYED) " or "(Undeployed) " before the id, or
      `type  (id: id)` when the state is unknown. Either way it names the id
      at its end, and a known state is spelt out at its start; the state can
      be read back from the tooltip and the id. */
  function Tooltip(o: ObjectIndex): (r: string)
    ensures o.deployed == Some(true) ==> r == "(DEPLOYED) " + o.id
    ensures o.deployed == Some(false) ==> r == "(Undeployed) " + o.id
    ensures o.deployed.None? ==> r == o.objectType + "  (id: " + o.id + ")"
    ensures o.deployed.Some? ==> DeployedFromTooltip(r, o.id) == o.deployed
  {
    match o.deployed
    case Some(true) => "(DEPLOYED) " + o.id
    case Some(false) => "(Undeployed) " + o.id
    case None => o.objectType + "  (id: " + o.id + ")"
  }

  /** The known deployment state a tooltip shows for the object `id`: the
      inverse of `Tooltip` on known states. */
  function DeployedFromTooltip(text: string, id: string): Option<bool>
  {
    if text == "(DEPLOYED) " + id then Some(true)
    else if text == "(Undeployed) " + id then Some(false)
    else None
  }

  /** The deployment state a label shows for the object `id`: the inverse
      of `Label`. */
  function DeployedFromLabel(text: string, id: string): Option<bool>
  {
    if text == "(D) " + id then Some(true)
    else if text == "(Undeployed) " + id then Some(false)
    else None
  }

  /** The item for one object under its type node: its id is the object's,
      it is a leaf with context 'object', and clicking it opens the object's
      XML file. */
  function ChildItem(o: ObjectIndex): (r: TreeItem)
    ensures r.id == o.id && r.collapsibleState == NotCollapsible && r.contextValue == "object"
    ensures r.command == Command("nsi.openFile", "", [o.xmlFile])
    ensures r.files == Some(FilePair(o.xmlFile, o.jsonFile))
    ensures DeployedFromLabel(r.itemLabel, o.id) == o.deployed
    ensures r.itemLabel == Label(o) && r.tooltip == Tooltip(o)
  {
    TreeItem(Label(o), NotCollapsible, o.id, "", Tooltip(o),
             Command("nsi.openFile", "", [o.xmlFile]), "object",
             Some(FilePair(o.xmlFile, o.jsonFile)))
  }

  /** The types of the index, position by position. */
  function Types(index: seq<ObjectIndex>): (ts: seq<string>)
    ensures |ts| == |index|
    ensures forall i :: 0 <= i < |index| ==> ts[i] == index[i].objectType
  {
    seq(|index|, i requires 0 <= i < |index| => index[i].objectType)
  }

  /** The root level for an index: the INDEX item, then one collapsed node
      per distinct type of the index, ascending. */
  function RootLevel(index: seq<ObjectIndex>, indexPath: string): (r: seq<TreeItem>)
    ensures |r| >= 1 && r[0] == IndexItem(indexPath, Some(FilePair("", indexPath)))
    ensures forall k :: 1 <= k < |r| ==>
      r[k] == TypeItem(r[k].id, Some(FilePair("", ""))) && r[k].id in Types(index)
    ensures forall i :: 0 <= i < |index| ==> exists k :: 1 <= k < |r| && r[k].id == index[i].objectType
    ensures forall i, j :: 1 <= i < j < |r| ==> Ordering.Less(r[i].id, r[j].id)
  {
    var types := Types(index);
    assert forall i :: 0 <= i < |index| ==> types[i] in types;
    RootItems(IndexItem(indexPath, Some(FilePair("", indexPath))), types, Some(FilePair("", "")))
  }

  /** The children of the type node `t`: the items of the index's objects
      of type `t`, in index order. */
  function TypeChildren(index: seq<ObjectIndex>, t: string): (r: seq<TreeItem>)
    ensures var selected := Seqs.Filter(index, OfType(t));
      && |r| == |selected|
      && forall k :: 0 <= k < |r| ==> r[k] == ChildItem(selected[k]) && selected[k].objectType == t
  {
    var selected := Seqs.Filter(index, OfType(t));
    seq(|selected|, k requires 0 <= k < |selected| => ChildItem(selected[k]))
  }

  /** `getObjects(element)`, given what the local index's `getObjects()`
      returned: no items without an index; the root level for no element;
      otherwise the children of the element's type. */
  function GetObjects(index: Option<seq<ObjectIndex>>, indexPath: string,
                      element: Option<TreeItem>): (r: seq<TreeItem>)
    ensures index.None? ==> r == []
    ensures index.Some? && element.None? ==> r == RootLevel(index.value, indexPath)
    ensures index.Some? && element.Some? ==> r == TypeChildren(index.value, element.value.id)
  {
    if index.Some? then
      if element.Some? then TypeChildren(index.value, element.value.id)
      else RootLevel(index.value, indexPath)
    else []
  }

  /** The root level and the children agree: every object of the index
      appears among the children of the type node whose id is its type (the
      only such node, since the node ids strictly ascend). */
  lemma EveryObjectUnderItsType(index: seq<ObjectIndex>, indexPath: string, o: ObjectIndex)
    requires o in index
    ensures var root := RootLevel(index, indexPath);
      exists k :: 1 <= k < |root| && root[k].id == o.objectType
        && ChildItem(o) in TypeChildren(index, root[k].id)
  {
    var root := RootLevel(index, indexPath);
    var i :| 0 <= i < |index| && index[i] == o;
    var k :| 1 <= k < |root| && root[k].id == index[i].objectType;
    var children := TypeChildren(index, root[k].id);
    Seqs.FilterMembership(index, OfType(o.objectType), o);
    var selected := Seqs.Filter(index, OfType(o.objectType));
    var j :| 0 <= j < |selected| && selected[j] == o;
    assert children[j] == ChildItem(o);
  }
}

=== FILE: objects.dfy ===
/** The local object index (`NsiObjects`, src/models/objects.ts): the list of
    objects found in the SDF project's Objects directory, kept in memory and
    in an index file. File contents are abstract values: the index file is
    the `{ "objects": … }` record itself, not its JSON text. */
module LocalObjects {
  import opened Optional
  import Seqs
  import Paths

  /** One entry of the local index (`NsiObjectIndex`): the object's type and
      script id, the XML file it was read from, the JSON file written for it,
      and whether verification last found it on the server (undefined until
      then). */
  datatype ObjectIndex = ObjectIndex(
    objectType: string,
    id: string,
    xmlFile: string,
    jsonFile: string,
    deployed: Option<bool>)

  /** The content `saveIndex` writes, `{ "objects": objects }`. An undefined
      list is dropped by `JSON.stringify`, and reads back as undefined. */
  datatype IndexFile = IndexFile(objects: Option<seq<ObjectIndex>>)

  /** The state of one `NsiObjects`: the in-memory list, and the index file
      (None while the file does not exist). */
  datatype Store = Store(objects: seq<ObjectIndex>, index: Option<IndexFile>)

  /** The ids of a list of records, position by position. */
  function Ids(objects: seq<ObjectIndex>): (ids: seq<string>)
    ensures |ids| == |objects|
    ensures forall i :: 0 <= i < |objects| ==> ids[i] == objects[i].id
  {
    seq(|objects|, i requires 0 <= i < |objects| => objects[i].id)
  }

  /** `getObjects()`: the in-memory list when it is non-empty, otherwise
      what the index file holds, which may be missing or undefined. */
  function GetObjects(st: Store): (r: Option<seq<ObjectIndex>>)
    ensures st.objects != [] ==> r == Some(st.objects)
    ensures st.objects == [] && st.index.Some? ==> r == st.index.value.objects
    ensures r.None? <==> st.objects == [] && (st.index.None? || st.index.value.objects.None?)
  {
    if |st.objects| == 0 then
      match st.index
      case None => None
      case Some(file) => file.objects
    else Some(st.objects)
  }

  /** `getObjectCount()`: `length || 0`, which is just the length. */
  function GetObjectCount(st: Store): (n: nat)
    ensures n == 0 <==> st.objects == []
    ensures n > 0 ==> GetObjects(st) == Some(st.objects) && |GetObjects(st).value| == n
  {
    |st.objects|
  }

  /** `getObjectRecord(id)` as written: the record at the first position
      holding `id`, kept only when that position passes `index && index > 0`.
      Position 0 is falsy, so a record at the head of the list is never
      found; "not found" (-1) fails `> 0`. */
  function GetObjectRecord(objects: seq<ObjectIndex>, id: string): (r: Option<ObjectIndex>)
    ensures r.Some? <==> id in Ids(objects) && objects[0].id != id
    ensures r.Some? ==> exists k :: 0 < k < |objects| && objects[k] == r.value && id !in Ids(objects)[..k]
    ensures r.Some? ==> r.value.id == id
  {
    var index := Seqs.IndexOf(Ids(objects), id);
    if index != 0 && index > 0 then Some(objects[index]) else None
  }

  /** The lookup `getObjectRecord` evidently means: the first record with the
      id, wherever it stands. */
  function FindObjectRecord(objects: seq<ObjectIndex>, id: string): (r: Option<ObjectIndex>)
    ensures r.Some? <==> id in Ids(objects)
    ensures r.Some? ==> exists k :: 0 <= k < |objects| && objects[k] == r.value && id !in Ids(objects)[..k]
    ensures r.Some? ==> r.value.id == id
  {
    var index := Seqs.IndexOf(Ids(objects), id);
    if index >= 0 then Some(objects[index]) else None
  }

  /** The written lookup and the intended one differ in exactly one case:
      the id's first record is the head of the list. */
  lemma GetObjectRecordMissesHead(objects: seq<ObjectIndex>, id: string)
    ensures GetObjectRecord(objects, id) ==
      if |objects| > 0 && objects[0].id == id then None else FindObjectRecord(objects, id)
  {
    if |objects| > 0 && objects[0].id != id {
      assert Ids(objects)[0] != id;
    }
  }

  /** A one-record index in which the written lookup cannot find the only
      record there is. */
  lemma GetObjectRecordHeadCounterexample()
    ensures var o := ObjectIndex("savedsearch", "customsearch_a", "a.xml", "a.json", None);
      GetObjectRecord([o], o.id).None? && FindObjectRecord([o], o.id) == Some(o)
  {
    var o := ObjectIndex("savedsearch", "customsearch_a", "a.xml", "a.json", None);
    assert Ids([o])[0] == o.id;
  }

  /** `resetObjects()`: the in-memory list is emptied; the file stays. */
  function ResetObjects(st: Store): (r: Store)
    ensures GetObjectCount(r) == 0 && r.index == st.index
  {
    st.(objects := [])
  }

  /** `reset()`: the list is emptied and the objects directory, index file
      included, is removed and recreated empty. */
  function Reset(st: Store): (r: Store)
    ensures GetObjectCount(r) == 0 && GetObjects(r).None?
  {
    Store([], None)
  }

  /** `addObject(o)`: `o` is pushed at the end of the list. */
  function AddObject(st: Store, o: ObjectIndex): (r: Store)
    ensures GetObjectCount(r) == GetObjectCount(st) + 1
    ensures r.objects[..|st.objects|] == st.objects && r.objects[|st.objects|] == o
    ensures r.index == st.index
  {
    st.(objects := st.objects + [o])
  }

  /** `saveIndex(objects)`: the record written to the index file. */
  function SaveIndex(objects: Option<seq<ObjectIndex>>): (f: IndexFile)
    ensures f.objects == objects
  {
    IndexFile(objects)
  }

  /** `createIndex(objects)`: the index file is rewritten and the in-memory
      list becomes `objects`, or the empty list when `objects` is undefined. */
  function CreateIndex(st: Store, objects: Option<seq<ObjectIndex>>): (r: Store)
    ensures objects.Some? ==> r.objects == objects.value
    ensures objects.None? ==> r.objects == []
    ensures GetObjectCount(r) == |objects.GetOr([])|
  {
    Store(objects.GetOr([]), Some(SaveIndex(objects)))
  }

  /** What `getObjects` reads back from a saved index once the in-memory list
      is gone is exactly what was saved: a list, or undefined. While the
      in-memory list is non-empty, `getObjects` returns it. */
  lemma SavedIndexReadsBack(st: Store, objects: Option<seq<ObjectIndex>>)
    ensures GetObjects(ResetObjects(CreateIndex(st, objects))) == objects
    ensures objects.Some? && objects.value != [] ==> GetObjects(CreateIndex(st, objects)) == objects
  {
  }

  /** One `{id, value}` pair handed to `updateObjectFields`. */
  datatype FieldValue = FieldValue(id: string, value: bool)

  /** The list after a `'deployed'` pass, and whether the pass got through
      every value. */
  datatype Applied = Applied(objects: seq<ObjectIndex>, complete: bool)

  /** The `'deployed'` case of `updateObjectFields`, value by value: the
      first record with the value's id gets `deployed` set. A value whose id
      is missing makes `findIndex` return -1, and the write through
      `_objects[-1]` throws; the earlier values stay written, since the list
      is changed in place. */
  function ApplyDeployed(objects: seq<ObjectIndex>, values: seq<FieldValue>): (r: Applied)
    ensures Ids(r.objects) == Ids(objects)
    ensures forall k :: 0 <= k < |objects| ==>
      r.objects[k] == objects[k].(deployed := r.objects[k].deployed)
    ensures r.complete <==> forall j :: 0 <= j < |values| ==> values[j].id in Ids(objects)
    decreases |values|
  {
    if |values| == 0 then Applied(objects, true)
    else
      var i := Seqs.IndexOf(Ids(objects), values[0].id);
      if i < 0 then Applied(objects, false)
      else
        var next := objects[i := objects[i].(deployed := Some(values[0].value))];
        assert Ids(next) == Ids(objects);
        var r := ApplyDeployed(next, values[1..]);
        assert forall j :: 1 <= j < |values| ==> values[j] == values[1..][j - 1];
        r
  }

  /** The value a pass over `values` writes last for `id`, if any. */
  function LastValue(values: seq<FieldValue>, id: string): Option<bool>
  {
    if |values| == 0 then None
    else
      match LastValue(values[1..], id)
      case Some(b) => Some(b)
      case None => if values[0].id == id then Some(values[0].value) else None
  }

  /** A value given later for the same id overrides an earlier one. */
  lemma LastValueOfAppend(values: seq<FieldValue>, v: FieldValue)
    ensures LastValue(values + [v], v.id) == Some(v.value)
  {
    if |values| > 0 {
      assert (values + [v])[1..] == values[1..] + [v];
      LastValueOfAppend(values[1..], v);
    }
  }

  /** The last value written for `id` is one of the values given for it,
      and there is one exactly when some value names `id`. */
  lemma {:induction false} LastValueGiven(values: seq<FieldValue>, id: string)
    ensures LastValue(values, id).Some? <==> exists j :: 0 <= j < |values| && values[j].id == id
    ensures LastValue(values, id).Some? ==>
      exists j :: 0 <= j < |values| && values[j].id == id && LastValue(values, id) == Some(values[j].value)
  {
    if |values| > 0 {
      assert forall i :: 0 <= i < |values[1..]| ==> values[1..][i] == values[i + 1];
      LastValueGiven(values[1..], id);
    }
  }

  /** When every value given for `id` is `b`, and there is one, the last
      value written for `id` is `b`. */
  lemma LastValueUniform(values: seq<FieldValue>, id: string, b: bool, j: nat)
    requires j < |values| && values[j].id == id
    requires forall i :: 0 <= i < |values| && values[i].id == id ==> values[i].value == b
    ensures LastValue(values, id) == Some(b)
  {
    LastValueGiven(values, id);
  }

  /** When every id is present the pass completes, and each record ends as
      follows: the first record with a given id carries the last value given
      for that id; every other record is unchanged. */
  lemma {:induction false} ApplyDeployedSpec(objects: seq<ObjectIndex>, values: seq<FieldValue>)
    requires forall j :: 0 <= j < |values| ==> values[j].id in Ids(objects)
    ensures ApplyDeployed(objects, values).complete
    ensures forall k :: 0 <= k < |objects| ==>
      ApplyDeployed(objects, values).objects[k] ==
        var last := LastValue(values, objects[k].id);
        if Seqs.IndexOf(Ids(objects), objects[k].id) == k && last.Some?
        then objects[k].(deployed := last)
        else objects[k]
    decreases |values|
  {
    if |values| > 0 {
      var v := values[0];
      var i := Seqs.IndexOf(Ids(objects), v.id);
      var next := objects[i := objects[i].(deployed := Some(v.value))];
      assert Ids(next) == Ids(objects);
      assert forall j :: 0 <= j < |values[1..]| ==> values[1..][j] == values[j + 1];
      ApplyDeployedSpec(next, values[1..]);
      var r := ApplyDeployed(objects, values);
      assert r == ApplyDeployed(next, values[1..]);
      forall k | 0 <= k < |objects|
        ensures r.objects[k] ==
          var last := LastValue(values, objects[k].id);
          if Seqs.IndexOf(Ids(objects), objects[k].id) == k && last.Some?
          then objects[k].(deployed := last)
          else objects[k]
      {
        assert Ids(objects)[k] == objects[k].id;
        assert next[k].id == objects[k].id;
      }
    }
  }

  /** The result of `updateObjectFields`: the state it leaves, and whether it
      threw. */
  datatype Update = Update(store: Store, threw: bool)

  /** `updateObjectFields(field, values)`. For `'deployed'` the values are
      written in order and the index is saved, unless an id is missing: then
      the call throws after the earlier writes and nothing is saved. Any
      other field changes nothing (each value only logs an error) and the
      index is still saved with the current list. */
  function UpdateObjectFields(st: Store, field: string, values: seq<FieldValue>): (r: Update)
    ensures r.threw <==> field == "deployed" && exists j :: 0 <= j < |values| && values[j].id !in Ids(st.objects)
    ensures !r.threw ==> r.store.index == Some(SaveIndex(Some(r.store.objects)))
    ensures r.threw ==> r.store.index == st.index
    ensures field != "deployed" ==> r.store.objects == st.objects
    ensures |r.store.objects| == |st.objects|
    ensures forall k :: 0 <= k < |st.objects| ==>
      r.store.objects[k] == st.objects[k].(deployed := r.store.objects[k].deployed)
  {
    if field == "deployed" then
      var applied := ApplyDeployed(st.objects, values);
      if applied.complete then Update(CreateIndex(st, Some(applied.objects)), false)
      else Update(st.(objects := applied.objects), true)
    else Update(CreateIndex(st, Some(st.objects)), false)
  }

  /** With every id present, a `'deployed'` update does not throw, and the
      first record with each id ends with the last value given for it; all
      other records, and all other fields, are unchanged. */
  lemma UpdateDeployedSpec(st: Store, values: seq<FieldValue>)
    requires forall j :: 0 <= j < |values| ==> values[j].id in Ids(st.objects)
    ensures var r := UpdateObjectFields(st, "deployed", values);
      !r.threw &&
      forall k :: 0 <= k < |st.objects| ==>
        r.store.objects[k] ==
          var last := LastValue(values, st.objects[k].id);
          if Seqs.IndexOf(Ids(st.objects), st.objects[k].id) == k && last.Some?
          then st.objects[k].(deployed := last)
          else st.objects[k]
  {
    ApplyDeployedSpec(st.objects, values);
  }

  /** A `'deployed'` update with one value per record, in record order and
      agreeing for equal ids, does not throw, and the first record of each
      id ends with the value given at its own position. */
  lemma UpdateDeployedPerRecord(st: Store, values: seq<FieldValue>)
    requires |values| == |st.objects|
    requires forall j :: 0 <= j < |values| ==> values[j].id == st.objects[j].id
    requires forall i, j :: 0 <= i < |values| && 0 <= j < |values| && values[i].id == values[j].id ==>
      values[i].value == values[j].value
    ensures var r := UpdateObjectFields(st, "deployed", values);
      && !r.threw
      && |r.store.objects| == |st.objects|
      && forall k :: 0 <= k < |st.objects| ==>
           r.store.objects[k] ==
             if Seqs.IndexOf(Ids(st.objects), st.objects[k].id) == k
             then st.objects[k].(deployed := Some(values[k].value))
             else st.objects[k]
  {
    assert forall j :: 0 <= j < |values| ==> values[j].id == Ids(st.objects)[j];
    UpdateDeployedSpec(st, values);
    forall k | 0 <= k < |st.objects|
      ensures LastValue(values, st.objects[k].id) == Some(values[k].value)
    {
      LastValueUniform(values, st.objects[k].id, values[k].value, k);
    }
  }

  /** What xml2js yields for one object file, reduced to the two values the
      scan reads: the root element's name and its `scriptid` field. */
  datatype XmlRoot = XmlRoot(rootName: string, scriptid: string)

  /** The record `createObjectFile(src, dest)` builds from a parsed file:
      type and id from the XML root, the two file names as given, and the
      deployment state not yet known. */
  function ObjectFileRecord(srcXmlFile: string, destJsonFile: string, root: XmlRoot): (o: ObjectIndex)
    ensures XmlRoot(o.objectType, o.id) == root
    ensures o.xmlFile == srcXmlFile && o.jsonFile == destJsonFile && o.deployed.None?
  {
    ObjectIndex(root.rootName, root.scriptid, srcXmlFile, destJsonFile, None)
  }

  /** The record converted from a directory entry, given the objects
      directory, the index root and what the XML parser makes of the file. */
  ghost predicate ConvertedFrom(o: ObjectIndex, name: string, sdfObjectsPath: string,
                                rootPath: string, parseXml: string -> Option<XmlRoot>)
  {
    && o.xmlFile == Paths.JoinPath(sdfObjectsPath, name)
    && o.jsonFile == Paths.JoinPath(rootPath, Paths.JsonFileName(name))
    && parseXml(o.xmlFile) == Some(XmlRoot(o.objectType, o.id))
    && o.deployed.None?
  }

  /** `createObjectFile(src, dest)`, given what xml2js makes of the source
      file (None for a file it yields no document for, such as an empty or
      malformed one). A parsed file has its record appended with
      `addObject`. Otherwise `Object.keys` throws before anything is added;
      nobody awaits the call, so the rejection is dropped and the store is
      left as it was. */
  function CreateObjectFile(st: Store, srcXmlFile: string, destJsonFile: string,
                            parseXml: string -> Option<XmlRoot>): (r: Store)
    ensures r.index == st.index
    ensures parseXml(srcXmlFile).None? ==> r == st
    ensures parseXml(srcXmlFile).Some? ==>
      && |r.objects| == |st.objects| + 1
      && r.objects[..|st.objects|] == st.objects
      && var o := r.objects[|st.objects|];
         o.xmlFile == srcXmlFile && o.jsonFile == destJsonFile && o.deployed.None?
         && parseXml(srcXmlFile) == Some(XmlRoot(o.objectType, o.id))
  {
    match parseXml(srcXmlFile)
    case Some(root) => AddObject(st, ObjectFileRecord(srcXmlFile, destJsonFile, root))
    case None => st
  }

  /** Whether the scan adds a record for the entry `name`: its extension is
      exactly ".xml" and its file parses. */
  function Converts(sdfObjectsPath: string, parseXml: string -> Option<XmlRoot>): string -> bool
  {
    (name: string) => Paths.IsXmlName(name) && parseXml(Paths.JoinPath(sdfObjectsPath, name)).Some?
  }

  /** One turn of the `forEach` in `createObjectFiles()`: an ".xml" entry
      goes to `createObjectFile` with its JSON copy named after its stem in
      the index root; any other entry is only logged. */
  function ScanStep(sdfObjectsPath: string, rootPath: string,
                    parseXml: string -> Option<XmlRoot>): (Store, string) -> Store
  {
    (st: Store, name: string) =>
      if Paths.IsXmlName(name)
      then CreateObjectFile(st, Paths.JoinPath(sdfObjectsPath, name),
                            Paths.JoinPath(rootPath, Paths.JsonFileName(name)), parseXml)
      else st
  }

  /** One turn of the scan keeps the file and the existing records, and
      appends a record converted from the entry exactly when the entry is
      an ".xml" file that parses. */
  lemma ScanStepAppends(st: Store, name: string, sdfObjectsPath: string,
                        rootPath: string, parseXml: string -> Option<XmlRoot>)
    ensures var r := ScanStep(sdfObjectsPath, rootPath, parseXml)(st, name);
      && r.index == st.index
      && (!Converts(sdfObjectsPath, parseXml)(name) ==> r == st)
      && (Converts(sdfObjectsPath, parseXml)(name) ==>
            && r.objects == st.objects + [r.objects[|st.objects|]]
            && ConvertedFrom(r.objects[|st.objects|], name, sdfObjectsPath, rootPath, parseXml))
  {
    var r := ScanStep(sdfObjectsPath, rootPath, parseXml)(st, name);
    if Converts(sdfObjectsPath, parseXml)(name) {
      assert r.objects == r.objects[..|st.objects|] + [r.objects[|st.objects|]];
    }
  }

  /** The scan over `entries` keeps the existing records first and appends
      one converted record per entry that is an ".xml" file and parses, in
      listing order; the index file is untouched. */
  lemma {:induction false} ScanRecords(st: Store, entries: seq<string>, sdfObjectsPath: string,
                                       rootPath: string, parseXml: string -> Option<XmlRoot>)
    ensures var r := Seqs.FoldLeft(ScanStep(sdfObjectsPath, rootPath, parseXml), st, entries);
      var accepted := Seqs.Filter(entries, Converts(sdfObjectsPath, parseXml));
      && r.index == st.index
      && |r.objects| == |st.objects| + |accepted|
      && r.objects[..|st.objects|] == st.objects
      && forall k :: 0 <= k < |accepted| ==>
           ConvertedFrom(r.objects[|st.objects| + k], accepted[k], sdfObjectsPath, rootPath, parseXml)
  {
    if |entries| > 0 {
      var n := |entries| - 1;
      var step := ScanStep(sdfObjectsPath, rootPath, parseXml);
      var accepts := Converts(sdfObjectsPath, parseXml);
      ScanRecords(st, entries[..n], sdfObjectsPath, rootPath, parseXml);
      Seqs.FilterPrefixStep(entries, n, accepts);
      assert entries[..n + 1] == entries;
      var before := Seqs.FoldLeft(step, st, entries[..n]);
      assert Seqs.FoldLeft(step, st, entries) == step(before, entries[n]);
      ScanStepAppends(before, entries[n], sdfObjectsPath, rootPath, parseXml);
      if accepts(entries[n]) {
        var r := step(before, entries[n]);
        assert r.objects[..|before.objects|] == before.objects;
        assert r.objects[..|st.objects|] == before.objects[..|st.objects|];
      }
    }
  }

  /** `createObjectFiles()`: each directory entry whose extension is exactly
      ".xml" and whose file parses is converted, in listing order, and its
      record appended; other entries add nothing. */
  method CreateObjectFiles(st: Store, sdfObjectsPath: string, rootPath: string,
                           entries: seq<string>, parseXml: string -> Option<XmlRoot>)
    returns (r: Store)
    ensures var accepted := Seqs.Filter(entries, Converts(sdfObjectsPath, parseXml));
      && r.index == st.index
      && |r.objects| == |st.objects| + |accepted|
      && r.objects[..|st.objects|] == st.objects
      && forall k :: 0 <= k < |accepted| ==>
           ConvertedFrom(r.objects[|st.objects| + k], accepted[k], sdfObjectsPath, rootPath, parseXml)
  {
    r := Seqs.ForEach(ScanStep(sdfObjectsPath, rootPath, parseXml), st, entries);
    ScanRecords(st, entries, sdfObjectsPath, rootPath, parseXml);
  }

  /** `createObjects()`: the list is emptied, then rebuilt from the scan, so
      it holds exactly one converted record per ".xml" entry that parses. */
  method CreateObjects(st: Store, sdfObjectsPath: string, rootPath: string,
                       entries: seq<string>, parseXml: string -> Option<XmlRoot>)
    returns (r: Store)
    ensures var accepted := Seqs.Filter(entries, Converts(sdfObjectsPath, parseXml));
      && r.index == st.index
      && |r.objects| == |accepted|
      && forall k :: 0 <= k < |r.objects| ==>
           ConvertedFrom(r.objects[k], accepted[k], sdfObjectsPath, rootPath, parseXml)
  {
    var cleared := ResetObjects(st);
    r := CreateObjectFiles(cleared, sdfObjectsPath, rootPath, entries, parseXml);
    assert |cleared.objects| == 0;
    forall k | 0 <= k < |r.objects|
      ensures ConvertedFrom(r.objects[k], Seqs.Filter(entries, Converts(sdfObjectsPath, parseXml))[k],
                            sdfObjectsPath, rootPath, parseXml)
    {
      assert r.objects[k] == r.objects[|cleared.objects| + k];
    }
  }
}

=== FILE: optional.dfy ===
/** Absent values and thrown errors, the two ways the extension's TypeScript
    signals "nothing here": a value that may be `undefined`, and a call that
    throws instead of returning. */
module Optional {

  /** `T | undefined`. */
  datatype Option<+T> = None | Some(value: T) {

    /** The value, or `default` when it is undefined (the `x || default` idiom
        applied to a value that is either an object or undefined). */
    function GetOr(default: T): T {
      match this
      case Some(v) => v
      case None => default
    }
  }

  /** The outcome of a call that may throw: its value, or the message of the
      error it raised. */
  datatype Result<+T> = Ok(value: T) | Thrown(message: string)
}

=== FILE: ordering.dfy ===
/** The order `Array.prototype.sort()` uses when it is given no comparator
    and the elements are strings: lexicographic, character by character,
    with a proper prefix before its extensions. */
module Ordering {

  /** `a` sorts strictly before `b`. */
  predicate Less(a: string, b: string)
    decreases |a|
  {
    if |a| == 0 then |b| > 0
    else |b| > 0 && (a[0] < b[0] || (a[0] == b[0] && Less(a[1..], b[1..])))
  }

  lemma {:induction false} LessIrreflexive(a: string)
    ensures !Less(a, a)
    decreases |a|
  {
    if |a| > 0 {
      LessIrreflexive(a[1..]);
    }
  }

  lemma {:induction false} LessTransitive(a: string, b: string, c: string)
    requires Less(a, b) && Less(b, c)
    ensures Less(a, c)
    decreases |a|
  {
    if |a| > 0 && a[0] == b[0] && b[0] == c[0] {
      LessTransitive(a[1..], b[1..], c[1..]);
    }
  }

  /** Any two strings are equal or ordered one way round. */
  lemma {:induction false} LessTotal(a: string, b: string)
    ensures a == b || Less(a, b) || Less(b, a)
    decreases |a|
  {
    if |a| > 0 && |b| > 0 && a[0] == b[0] {
      LessTotal(a[1..], b[1..]);
      if a[1..] == b[1..] {
        assert a == [a[0]] + a[1..] && b == [b[0]] + b[1..];
      }
    }
  }

  lemma LessAsymmetric(a: string, b: string)
    requires Less(a, b)
    ensures !Less(b, a)
  {
    if Less(b, a) {
      LessTransitive(a, b, a);
      LessIrreflexive(a);
    }
  }

  /** Strictly ascending: sorted and free of duplicates. */
  ghost predicate StrictlySorted(xs: seq<string>) {
    forall i, j :: 0 <= i < j < |xs| ==> Less(xs[i], xs[j])
  }

  /** `t` placed into the strictly sorted `xs`, unless it is already there. */
  function Insert(xs: seq<string>, t: string): (r: seq<string>)
    requires StrictlySorted(xs)
    ensures StrictlySorted(r)
    ensures forall s :: s in r <==> s in xs || s == t
  {
    if |xs| == 0 then [t]
    else if xs[0] == t then xs
    else if Less(t, xs[0]) then
      assert forall j :: 0 < j < |xs| ==> Less(t, xs[j]) by {
        forall j | 0 < j < |xs| { LessTransitive(t, xs[0], xs[j]); }
      }
      [t] + xs
    else
      var rest := Insert(xs[1..], t);
      LessTotal(t, xs[0]);
      assert forall s :: s in rest ==> Less(xs[0], s);
      [xs[0]] + rest
  }

  /** The distinct values of `ts`, in ascending order: what
      `[...new Set(ts)].sort()` yields. */
  function SortedDistinct(ts: seq<string>): (r: seq<string>)
    ensures StrictlySorted(r)
    ensures forall s :: s in r <==> s in ts
  {
    if |ts| == 0 then []
    else Insert(SortedDistinct(ts[..|ts| - 1]), ts[|ts| - 1])
  }

  /** A strictly sorted sequence is determined by its elements: so the two
      ensures of `SortedDistinct` leave it exactly one possible result. */
  lemma {:induction false} StrictlySortedUnique(xs: seq<string>, ys: seq<string>)
    requires StrictlySorted(xs) && StrictlySorted(ys)
    requires forall s :: s in xs <==> s in ys
    ensures xs == ys
    decreases |xs|
  {
    assert |xs| > 0 ==> xs[0] in ys;
    assert |ys| > 0 ==> ys[0] in xs;
    if |xs| > 0 && |ys| > 0 {
      if xs[0] != ys[0] {
        assert xs[0] in ys && ys[0] in xs;
        var i :| 0 <= i < |ys| && ys[i] == xs[0];
        var j :| 0 <= j < |xs| && xs[j] == ys[0];
        assert Less(ys[0], xs[0]) && Less(xs[0], ys[0]);
        LessAsymmetric(xs[0], ys[0]);
      }
      LessIrreflexive(xs[0]);
      forall s | s in xs[1..]
        ensures s in ys[1..]
      {
        assert s in ys;
        var j :| 0 <= j < |ys| && ys[j] == s;
      }
      forall s | s in ys[1..]
        ensures s in xs[1..]
      {
        assert s in xs;
        var i :| 0 <= i < |xs| && xs[i] == s;
      }
      StrictlySortedUnique(xs[1..], ys[1..]);
      assert xs == [xs[0]] + xs[1..] && ys == [ys[0]] + ys[1..];
    }
  }
}

=== FILE: paths.dfy ===
/** The few `path` operations the extension applies to file names: joining
    a directory and an entry name, and splitting an entry name into its stem
    and extension. Paths use '/' and are not normalised; the entry names come
    from a directory listing, so they hold no '/'. */
module Paths {
  import Seqs

  /** `path.join(dir, name)` for a directory and a single entry name. */
  function JoinPath(dir: string, name: string): string
  {
    dir + "/" + name
  }

  /** A path split at its last '/': the directory part. */
  function Parent(p: string): string
    requires '/' in p
  {
    p[..Seqs.LastIndexOf(p, '/')]
  }

  /** A path split at its last '/': the entry name. */
  function Leaf(p: string): string
    requires '/' in p
  {
    p[Seqs.LastIndexOf(p, '/') + 1..]
  }

  /** A joined path splits back into the directory and the entry it was
      made from. */
  lemma JoinPathSplits(dir: string, name: string)
    requires '/' !in name
    ensures '/' in JoinPath(dir, name)
    ensures Parent(JoinPath(dir, name)) == dir
    ensures Leaf(JoinPath(dir, name)) == name
  {
    var p := JoinPath(dir, name);
    assert p[|dir|] == '/';
    assert p[|dir| + 1..] == name;
    Seqs.LastIndexOfUnique(p, '/', |dir|);
  }

  /** `path.extname(name)` for an entry name: from the last '.' to the end,
      or "" when there is no '.', when the only candidate '.' is the first
      character (a dot-file such as ".xml"), or for "..". */
  function ExtName(name: string): (e: string)
    ensures e == "" || (e[0] == '.' && '.' !in e[1..] && |e| < |name| && name[|name| - |e|..] == e)
    ensures e == "" ==> name == "" || name == ".." || '.' !in name[1..]
  {
    var d := Seqs.LastIndexOf(name, '.');
    if d <= 0 || name == ".." then "" else name[d..]
  }

  /** `path.parse(name).name`: the entry name without its extension. */
  function Stem(name: string): (s: string)
    ensures s + ExtName(name) == name
  {
    name[..|name| - |ExtName(name)|]
  }

  /** The entry names the local scan converts: `path.extname(name) === '.xml'`,
      which holds exactly for names that end in ".xml" and have at least one
      character before it. */
  predicate IsXmlName(name: string) {
    ExtName(name) == ".xml"
  }

  lemma IsXmlNameIff(name: string)
    ensures IsXmlName(name) <==> |name| > 4 && name[|name| - 4..] == ".xml"
  {
    if |name| > 4 && name[|name| - 4..] == ".xml" {
      var d := |name| - 4;
      assert name[d] == '.';
      assert name[d + 1..] == "xml";
      Seqs.LastIndexOfUnique(name, '.', d);
    }
  }

  /** The JSON file name the scan gives a converted entry: its stem with
      ".json" appended. */
  function JsonFileName(name: string): string
  {
    Stem(name) + ".json"
  }

  /** The JSON name keeps the entry's stem and has extension ".json"; for an
      XML entry, the stem with ".xml" appended is the entry again, so the two
      names determine each other. */
  lemma JsonFileNameMapsStem(name: string)
    requires IsXmlName(name)
    ensures ExtName(JsonFileName(name)) == ".json"
    ensures Stem(JsonFileName(name)) == Stem(name)
    ensures Stem(name) + ".xml" == name
    ensures Stem(name) != ""
  {
    var stem := Stem(name);
    IsXmlNameIff(name);
    var j := JsonFileName(name);
    var d := |stem|;
    assert j[d] == '.';
    assert j[d + 1..] == "json";
    Seqs.LastIndexOfUnique(j, '.', d);
    assert j != "..";
    assert j[..d] == stem;
  }
}

=== FILE: seqs.dfy ===
/** The JavaScript sequence primitives the extension leans on, for strings
    and arrays alike: `indexOf`/`findIndex`, `lastIndexOf`, `split` with a
    one-character separator, `join`, and `filter`. */
module Seqs {

  /** Position of the first `x` in `xs`, or -1 when there is none: both
      `String.prototype.indexOf` with a one-character argument and
      `Array.prototype.findIndex` with an equality test. */
  function IndexOf<T(==)>(xs: seq<T>, x: T): (r: int)
    ensures -1 <= r < |xs|
    ensures r == -1 <==> x !in xs
    ensures 0 <= r ==> xs[r] == x && x !in xs[..r]
  {
    if |xs| == 0 then -1
    else if xs[0] == x then 0
    else
      var k := IndexOf(xs[1..], x);
      assert 0 <= k ==> xs[..k + 1] == [xs[0]] + xs[1..][..k];
      if k == -1 then -1 else k + 1
  }

  /** Any position holding `x` at or after the first one is the first one. */
  lemma IndexOfUnique<T>(xs: seq<T>, x: T, k: nat)
    requires k < |xs| && xs[k] == x && x !in xs[..k]
    ensures IndexOf(xs, x) == k
  {
    var r := IndexOf(xs, x);
    assert forall j :: 0 <= j < k ==> xs[..k][j] == xs[j];
    assert forall j :: 0 <= j < r ==> xs[..r][j] == xs[j];
  }

  /** Position of the last `x` in `xs`, or -1: `lastIndexOf`. */
  function LastIndexOf<T(==)>(xs: seq<T>, x: T): (r: int)
    ensures -1 <= r < |xs|
    ensures r == -1 <==> x !in xs
    ensures 0 <= r ==> xs[r] == x && x !in xs[r + 1..]
  {
    if |xs| == 0 then -1
    else if xs[|xs| - 1] == x then |xs| - 1
    else
      var k := LastIndexOf(xs[..|xs| - 1], x);
      assert 0 <= k ==> xs[k + 1..] == xs[..|xs| - 1][k + 1..] + [xs[|xs| - 1]];
      k
  }

  /** Any position holding `x` with no `x` after it is the last one. */
  lemma LastIndexOfUnique<T>(xs: seq<T>, x: T, k: nat)
    requires k < |xs| && xs[k] == x && x !in xs[k + 1..]
    ensures LastIndexOf(xs, x) == k
  {
    var r := LastIndexOf(xs, x);
    assert forall j :: k < j < |xs| ==> xs[k + 1..][j - k - 1] == xs[j];
    assert forall j :: r < j < |xs| ==> xs[r + 1..][j - r - 1] == xs[j];
  }

  /** `Array.prototype.join(sep)` with a one-element separator: nothing for
      no parts, the part itself for one. */
  function Join<T>(parts: seq<seq<T>>, sep: T): seq<T>
  {
    if |parts| == 0 then []
    else if |parts| == 1 then parts[0]
    else parts[0] + [sep] + Join(parts[1..], sep)
  }

  /** `String.prototype.split(sep)` with a one-character separator: the
      separator-free pieces between separators, in order. There is always at
      least one piece, and joining the pieces back gives the input. */
  function Split<T(==)>(s: seq<T>, sep: T): (parts: seq<seq<T>>)
    ensures |parts| >= 1
    ensures forall i :: 0 <= i < |parts| ==> sep !in parts[i]
    ensures Join(parts, sep) == s
    decreases |s|
  {
    var k := IndexOf(s, sep);
    if k == -1 then [s]
    else
      var head, tail := s[..k], s[k + 1..];
      var rest := Split(tail, sep);
      var parts := [head] + rest;
      assert parts[0] == head && parts[1..] == rest;
      assert Join(parts, sep) == head + [sep] + Join(rest, sep);
      assert s == head + [sep] + tail;
      assert forall i :: 1 <= i < |parts| ==> parts[i] == rest[i - 1];
      parts
  }

  /** Splitting undoes joining when no part holds the separator. */
  lemma {:induction false} SplitOfJoin<T>(parts: seq<seq<T>>, sep: T)
    requires |parts| >= 1
    requires forall i :: 0 <= i < |parts| ==> sep !in parts[i]
    ensures Split(Join(parts, sep), sep) == parts
  {
    if |parts| > 1 {
      var head, tail := parts[0], Join(parts[1..], sep);
      var s := head + [sep] + tail;
      assert s == Join(parts, sep);
      assert s[..|head|] == head;
      IndexOfUnique(s, sep, |head|);
      assert s[|head| + 1..] == tail;
      assert Split(s, sep) == [head] + Split(tail, sep);
      SplitOfJoin(parts[1..], sep);
    }
  }

  /** The elements of `xs` that `keep` accepts, in their original order:
      `Array.prototype.filter`. */
  function Filter<T>(xs: seq<T>, keep: T -> bool): (r: seq<T>)
    ensures |r| <= |xs|
    ensures forall i :: 0 <= i < |r| ==> keep(r[i])
  {
    if |xs| == 0 then []
    else (if keep(xs[0]) then [xs[0]] else []) + Filter(xs[1..], keep)
  }

  /** Filtering commutes with concatenation; with the one-element cases
      (kept or dropped) this pins `Filter` down completely. */
  lemma {:induction false} FilterAppend<T>(a: seq<T>, b: seq<T>, keep: T -> bool)
    ensures Filter(a + b, keep) == Filter(a, keep) + Filter(b, keep)
  {
    if |a| > 0 {
      assert (a + b)[1..] == a[1..] + b;
      FilterAppend(a[1..], b, keep);
    } else {
      assert a + b == b;
    }
  }

  /** An element is in the filtered sequence exactly when it is in the input
      and accepted. */
  lemma {:induction false} FilterMembership<T>(xs: seq<T>, keep: T -> bool, x: T)
    ensures x in Filter(xs, keep) <==> x in xs && keep(x)
  {
    if |xs| > 0 {
      FilterMembership(xs[1..], keep, x);
      assert xs == [xs[0]] + xs[1..];
    }
  }

  /** Filtering keeps everything when everything is accepted. */
  lemma {:induction false} FilterAll<T>(xs: seq<T>, keep: T -> bool)
    requires forall i :: 0 <= i < |xs| ==> keep(xs[i])
    ensures Filter(xs, keep) == xs
  {
    if |xs| > 0 {
      FilterAll(xs[1..], keep);
      assert xs == [xs[0]] + xs[1..];
    }
  }

  /** Appending one element appends it to the filtered sequence exactly
      when it is accepted. */
  lemma FilterSnoc<T>(xs: seq<T>, x: T, keep: T -> bool)
    ensures Filter(xs + [x], keep) == Filter(xs, keep) + (if keep(x) then [x] else [])
  {
    FilterAppend(xs, [x], keep);
    assert [x][1..] == [];
  }

  /** Extending a prefix by one element extends its filtered sequence by
      that element exactly when it is accepted. */
  lemma FilterPrefixStep<T>(xs: seq<T>, i: nat, keep: T -> bool)
    requires i < |xs|
    ensures Filter(xs[..i + 1], keep) == Filter(xs[..i], keep) + (if keep(xs[i]) then [xs[i]] else [])
  {
    assert xs[..i + 1] == xs[..i] + [xs[i]];
    FilterSnoc(xs[..i], xs[i], keep);
  }

  /** The state `step` leaves after each of `xs` in turn, starting from
      `init`: what a `forEach` loop over `xs` computes. */
  function FoldLeft<T, S>(step: (S, T) -> S, init: S, xs: seq<T>): S
  {
    if |xs| == 0 then init
    else step(FoldLeft(step, init, xs[..|xs| - 1]), xs[|xs| - 1])
  }

  /** `xs.forEach(x => state = step(state, x))`, run from `init`. */
  method ForEach<T, S>(step: (S, T) -> S, init: S, xs: seq<T>) returns (r: S)
    ensures r == FoldLeft(step, init, xs)
  {
    r := init;
    var i := 0;
    while i < |xs|
      invariant 0 <= i <= |xs|
      invariant r == FoldLeft(step, init, xs[..i])
    {
      assert xs[..i + 1][..i] == xs[..i];
      r := step(r, xs[i]);
      i := i + 1;
    }
    assert xs[..i] == xs;
  }
}

=== FILE: text.dfy ===
/** String operations with JavaScript's semantics: `substring` with its
    argument clamping, and the decimal rendering a template literal gives a
    non-negative integer count. */
module Text {

  /** An index clamped into `0..n`, as `substring` treats its arguments
      (negative ones count as 0, too-large ones as the length). */
  function Clamp(i: int, n: nat): (r: nat)
    ensures r <= n
    ensures 0 <= i <= n ==> r == i
  {
    if i < 0 then 0 else if i > n then n else i
  }

  /** `s.substring(start, end)`: both ends clamped, and swapped when the
      start lies after the end. */
  function Substring(s: string, start: int, end: int): (r: string)
    ensures 0 <= start <= end <= |s| ==> r == s[start..end]
    ensures end < 0 ==> r == s[..Clamp(start, |s|)]
  {
    var a, b := Clamp(start, |s|), Clamp(end, |s|);
    if a <= b then s[a..b] else s[b..a]
  }

  /** `s.substring(start)`. */
  function SubstringFrom(s: string, start: int): (r: string)
    ensures 0 <= start <= |s| ==> r == s[start..]
    ensures start < 0 ==> r == s
  {
    Substring(s, start, |s|)
  }

  predicate IsDigit(c: char) {
    '0' <= c <= '9'
  }

  predicate IsDigits(s: string) {
    forall i :: 0 <= i < |s| ==> IsDigit(s[i])
  }

  function DigitChar(d: nat): (c: char)
    requires d < 10
    ensures IsDigit(c)
  {
    "0123456789"[d]
  }

  function DigitValue(c: char): (d: nat)
    requires IsDigit(c)
    ensures d < 10
  {
    (c as int - '0' as int) as nat
  }

  /** The decimal text of a count, as `${n}` renders a non-negative integer:
      digits only, and no leading zero except for 0 itself. */
  function NatToString(n: nat): (s: string)
    ensures |s| >= 1 && IsDigits(s)
    ensures s[0] == '0' ==> n == 0
  {
    if n < 10 then [DigitChar(n)]
    else NatToString(n / 10) + [DigitChar(n % 10)]
  }

  /** The value of a string of decimal digits. */
  function ParseNat(s: string): nat
    requires IsDigits(s)
  {
    if |s| == 0 then 0
    else ParseNat(s[..|s| - 1]) * 10 + DigitValue(s[|s| - 1])
  }

  lemma DigitRoundTrip(d: nat)
    requires d < 10
    ensures DigitValue(DigitChar(d)) == d
  {
  }

  /** Reading the decimal text back gives the count: the rendering loses
      nothing. */
  lemma {:induction false} ParseNatToString(n: nat)
    ensures ParseNat(NatToString(n)) == n
  {
    var s := NatToString(n);
    if n < 10 {
      DigitRoundTrip(n);
    } else {
      ParseNatToString(n / 10);
      DigitRoundTrip(n % 10);
      assert s[..|s| - 1] == NatToString(n / 10);
    }
  }
}

=== FILE: tree_items.dfy ===
/** What the two tree providers (src/models/object/tree.ts and
    src/models/obj/tree.ts) have in common: the item record the editor's tree
    view is given, and the root level, which is an INDEX item followed by one
    collapsed node per distinct object type, in ascending order. */
module TreeItems {
  import opened Optional
  import Ordering

  /** `TreeItemCollapsibleState.None` and `.Collapsed`. */
  datatype CollapsibleState = NotCollapsible | Collapsed

  /** The click command of an item: command id, title and arguments. */
  datatype Command = Command(command: string, title: string, arguments: seq<string>)

  /** The `xmlFile` and `jsonFile` of a local tree item; server items have
      none. */
  datatype FilePair = FilePair(xmlFile: string, jsonFile: string)

  /** One tree item (`NsiObjectTree` when `files` is present, `NsiObjTree`
      when it is not). */
  datatype TreeItem = TreeItem(
    itemLabel: string,
    collapsibleState: CollapsibleState,
    id: string,
    description: string,
    tooltip: string,
    command: Command,
    contextValue: string,
    files: Option<FilePair>)

  /** The INDEX item heading the root level: not collapsible, id and context
      'index', and a click that opens the index file. */
  function IndexItem(indexPath: string, files: Option<FilePair>): TreeItem
  {
    TreeItem("INDEX", NotCollapsible, "index", "", "Main index.",
             Command("nsi.openFile", "", [indexPath]), "index", files)
  }

  /** The collapsed node of one object type; its label, id and tooltip are
      the type. */
  function TypeItem(objectType: string, files: Option<FilePair>): TreeItem
  {
    TreeItem(objectType, Collapsed, objectType, "", objectType,
             Command("NsiObjs.jsonFile", "", [""]), "objType", files)
  }

  /** One collapsed node per type of `ds`, in order. */
  function TypeNodes(ds: seq<string>, typeFiles: Option<FilePair>): (nodes: seq<TreeItem>)
    ensures |nodes| == |ds|
    ensures forall k :: 0 <= k < |ds| ==> nodes[k] == TypeItem(ds[k], typeFiles)
  {
    seq(|ds|, k requires 0 <= k < |ds| => TypeItem(ds[k], typeFiles))
  }

  /** The nodes of a strictly sorted `ds` behind an index item are type
      nodes of `ds`, in strictly ascending order. */
  lemma NodesTypedAndSorted(indexItem: TreeItem, ds: seq<string>, typeFiles: Option<FilePair>)
    requires Ordering.StrictlySorted(ds)
    ensures var r := [indexItem] + TypeNodes(ds, typeFiles);
      && (forall k :: 1 <= k < |r| ==> r[k] == TypeItem(ds[k - 1], typeFiles) && r[k].id in ds)
      && (forall i, j :: 1 <= i < j < |r| ==> Ordering.Less(r[i].id, r[j].id))
  {
    var r := [indexItem] + TypeNodes(ds, typeFiles);
    assert forall k :: 1 <= k < |r| ==> r[k] == TypeItem(ds[k - 1], typeFiles);
  }

  /** Every element of `ds` has its node behind the index item. */
  lemma NodesCover(indexItem: TreeItem, ds: seq<string>, typeFiles: Option<FilePair>)
    ensures var r := [indexItem] + TypeNodes(ds, typeFiles);
      forall t :: t in ds ==> exists k :: 1 <= k < |r| && r[k].id == t
  {
    var r := [indexItem] + TypeNodes(ds, typeFiles);
    forall t | t in ds
      ensures exists k :: 1 <= k < |r| && r[k].id == t
    {
      var i :| 0 <= i < |ds| && ds[i] == t;
      assert r[i + 1].id == t;
    }
  }

  /** The root level: `indexItem`, then one type node per distinct type in
      `types`, ascending and without repeats. */
  function RootItems(indexItem: TreeItem, types: seq<string>, typeFiles: Option<FilePair>): (r: seq<TreeItem>)
    ensures |r| >= 1 && r[0] == indexItem
    ensures forall k :: 1 <= k < |r| ==> r[k] == TypeItem(r[k].id, typeFiles) && r[k].id in types
    ensures forall t :: t in types <==> exists k :: 1 <= k < |r| && r[k].id == t
    ensures forall i, j :: 1 <= i < j < |r| ==> Ordering.Less(r[i].id, r[j].id)
  {
    var ds := Ordering.SortedDistinct(types);
    NodesTypedAndSorted(indexItem, ds, typeFiles);
    NodesCover(indexItem, ds, typeFiles);
    [indexItem] + TypeNodes(ds, typeFiles)
  }

  /** The root level is determined by the set of types: its size is one
      plus the number of distinct types, whatever their order and repeats in
      the index. */
  lemma RootItemsBySet(indexItem: TreeItem, types: seq<string>, types': seq<string>,
                       typeFiles: Option<FilePair>)
    requires forall t :: t in types <==> t in types'
    ensures RootItems(indexItem, types, typeFiles) == RootItems(indexItem, types', typeFiles)
    ensures |RootItems(indexItem, types, typeFiles)| == 1 + |Ordering.SortedDistinct(types)|
  {
    Ordering.StrictlySortedUnique(Ordering.SortedDistinct(types), Ordering.SortedDistinct(types'));
  }
}
